=== FILE: README.md ===
# Kz-NN in Dafny

A model of the small JavaScript neural-network library Kz-NN and proofs about it. The library has three parts:

- **`Matrix`** (src/matrix.js, copied verbatim into src/compact.js). It is a dense `rows x cols` grid with `zeros`, `from`, `multiply`, `add`, `subtract`, `dotMultiply`, `map` and `transpose`. Each binary operation throws on a shape mismatch.
- **The matrix `Network`**, in two versions:
  - src/compact.js, the current one;
  - src/network.js, an earlier copy.

  A network is a list of layer sizes with one weight matrix and one bias column per transition. `feedForward` runs `func(W·x + b)` layer by layer and caches every activation. `backPropagate` walks the transitions from the output down and moves each weight and bias by the learning-rate-scaled gradient. `train` runs `iter` passes of `feedForward` plus `backPropagate` over a dataset. src/compact.js also has `save` and `deserialize`.
- **The perceptron design** (k_ai.js). It has `Perceptron`, `Layer` and a two-layer `NeuralNetwork` with a fixed learning rate of `0.1`, trained one sample per `train` call.

## How the model is built

- **Numbers.** They are Dafny `real`s: exact arithmetic, no rounding, no `NaN`.
- **Activations.** The activation functions are parameters. In the matrix network this is `Activation(func, dfunc)`. In the perceptron design it is `sigmoid: real -> real`. The perceptron derivative `dsigmoid(y) = y * (1 - y)` is modelled exactly.
- **Errors.** Every `throw` becomes an `Err` of `Result` (results.dfy). Each has its own error kind:
  - the four "incorrect dimensions" messages;
  - "Invalid number of inputs" and "Invalid number of targets";
  - the perceptron layer's "Wrong number of input.";
  - a TypeError from reading a property of `undefined`, for example `Matrix.from([])` reading `data[0].length`.
- **Mutation.** A method that mutates `this` becomes a function from the network to an `Outcome`. An `Outcome` holds the network after the call and the call's result or error. A throw in the middle of `backPropagate` keeps the updates made before it, as the JavaScript does.
- **Loops.** The matrix loops (`MultiplyLoop`, `ZipWithLoop`, `TransposeLoop`) and the perceptron loops (`GetOutput`, `LayerFeedForwardLoop`) are written as methods. Each is proved equal to its functional definition.

Files:

| file | module | models |
|---|---|---|
| results.dfy | `Results` | error kinds, `Result`, `Option` |
| matrix.dfy | `Matrices` | src/matrix.js |
| matrix_laws.dfy | `MatrixLaws` | identity, transpose and add/subtract laws |
| network_core.dfy | `NetworkCore` | constructor, forward loop and backward loop shared by both matrix networks |
| network_laws.dfy | `NetworkLaws` | a reference semantics on plain vectors, and one backward step entry by entry |
| training.dfy | `Training` | the `iter` rounds of `train`, for any pass |
| compact.dfy / compact_laws.dfy | `Compact` / `CompactLaws` | src/compact.js |
| row_network.dfy / row_network_laws.dfy | `RowNetwork` / `RowNetworkLaws` | src/network.js, next to src/compact.js |
| perceptron.dfy / perceptron_laws.dfy | `Perceptrons` / `PerceptronLaws` | k_ai.js |

### Edge behaviour of the code

- **The backward error.** src/compact.js:264-269 (and src/network.js:63-68) update `weights[i]` first. They then compute `errors = transpose(weights[i]) · errors` from the new weights, and pass on the error, not the gradient. This differs from textbook backpropagation, which uses the weights from before the update. `NetworkLaws.BackStepCarry` states this as written. k_ai.js computes the hidden error from the old output weights (`PerceptronLaws.StepHiddenLayer`, `PerceptronLaws.TrainReadsOldOutputWeights`).
- **Throwing mid-loop.** With an empty input layer, the backward loop of src/compact.js:259-271 throws at `i = 0`, when `map` runs on the 0-row cache column. Nothing is rolled back: the model returns the network as the loop left it, next to the error. `NetworkLaws.BackwardFromShapes` and `CompactLaws.BackPropagateShapes` state that this is the only way the loop throws and that every shape is kept.
- **Malformed save data.** src/compact.js:211-230 fails with a TypeError from `Matrix.from` of an empty grid, or from a missing bias grid. `Compact.Deserialize` reports `ReadOfUndefined`.

## Model

| member | source | states |
|---|---|---|
| Matrices.Zeros | src/matrix.js:12-17 | the result is `rows x cols` and every entry is `0` |
| Matrices.From | src/matrix.js:28-33 | throws exactly on an empty grid; otherwise wraps the grid unchanged with `rows = |d|` and `cols = |d[0]|`, and is consistent exactly when every row has `|d[0]|` entries |
| Matrices.Multiply | src/matrix.js:48-68 | throws exactly when `a.cols != b.rows`; otherwise gives an `a.rows x b.cols` result whose entry `(i, j)` is row `i` of `a` dotted with column `j` of `b` |
| Matrices.MultiplyLoop | src/matrix.js:48-68 | the triple loop computes `Multiply`, error case included |
| Matrices.Add | src/matrix.js:70-83 | throws exactly on different shapes; otherwise adds entrywise |
| Matrices.DotMultiply | src/matrix.js:85-100 | throws exactly on different shapes; otherwise multiplies entrywise |
| Matrices.Subtract | src/matrix.js:102-115 | throws exactly on different shapes; otherwise subtracts entrywise |
| Matrices.ZipWithLoop | src/matrix.js:70-115 | the double loop of `add`, `subtract` and `dotMultiply` computes the entrywise operation, error case included |
| Matrices.Map | src/matrix.js:117-121 | throws exactly on a 0-row matrix (via `Matrix.from`); otherwise applies `f` to every entry of every row, ragged or not, keeping each row's length, and keeps the shape of a rectangular grid |
| Matrices.Transpose | src/matrix.js:123-133 | the result is `cols x rows` with entry `(j, i)` equal to entry `(i, j)` |
| Matrices.TransposeLoop | src/matrix.js:123-133 | the double loop computes `Transpose` |
| MatrixLaws.MultiplyIdentity | src/matrix.js:48-68 | multiplying by the identity on either side gives back the matrix |
| MatrixLaws.TransposeInvolution | src/matrix.js:123-133 | transposing twice gives back the matrix |
| MatrixLaws.MultiplyTranspose | src/matrix.js:48-133 | `transpose(b) · transpose(a) = transpose(a · b)` |
| MatrixLaws.AddThenSubtract | src/matrix.js:70-115 | `a.add(b).subtract(b) = a` on equal shapes |
| MatrixLaws.SubtractThenAdd | src/matrix.js:70-115 | `a.subtract(b).add(b) = a` on equal shapes |
| MatrixLaws.MapIdentity | src/matrix.js:117-121 | `map` of the identity function returns the matrix unchanged whenever it has a row |
| MatrixLaws.MapCompose | src/matrix.js:117-121 | mapping `f` and then `g` equals one `map` of `x => g(f(x))` |
| NetworkCore.Create | src/compact.js:186-200 | for any initial values, `weights[i]` is `layers[i+1] x layers[i]`, `biases[i]` is `layers[i+1] x 1`, and the cache is empty |
| NetworkCore.ColumnOf | src/compact.js:236 | `Matrix.from([xs]).transpose()` is the `|xs| x 1` column holding `xs` |
| NetworkCore.RowOf | src/network.js:54-55 | `Matrix.from([xs])` is the `1 x |xs|` row holding `xs` |
| NetworkCore.ForwardPass | src/compact.js:232-245 | throws "Invalid number of inputs" exactly on a wrong input length, and then leaves the network untouched; on success the cache starts with the input column, holds one column per layer, and the last one is returned; weights and biases never change |
| NetworkCore.BackStep | src/compact.js:259-271 | one backward step changes only `weights[i]` and `biases[i]`, keeps the layers and every other transition, and passes on valid matrices |
| NetworkCore.BackwardFrom | src/compact.js:259-271 | the loop from `i` down never touches transitions above `i` and preserves well-shapedness |
| NetworkCore.Backward | src/compact.js:255-271 | mismatched outputs and targets throw at `subtract` before any change; a 0-row output throws at `map` before any change |
| NetworkLaws.LayerStepOnColumn | src/compact.js:240-243 | on a column, one transition computes `func(Σ_k weights[i][r][k] * x[k] + biases[i][r])` for every unit `r`, and throws exactly when the next layer is empty |
| NetworkLaws.ForwardFromActivations | src/compact.js:239-245 | the forward loop fills the cache with the reference activations, and succeeds exactly when no later layer is empty |
| NetworkLaws.ForwardPassActivations | src/compact.js:232-245 | on a right-length input, the pass succeeds exactly when no layer after the input is empty, and the cache then holds the reference activation of every layer |
| NetworkLaws.ScaledGradientEntries | src/compact.js:260-262 | the scaled gradient holds `gradients[p] * errors[p] * learningRate` in row `p` |
| NetworkLaws.UpdatedWeightsEntries | src/compact.js:264-266 | the new weight `(p, q)` is the old one plus `g[p] * data[i][q]` |
| NetworkLaws.TransposedProductEntries | src/compact.js:269 | row `q` of `transpose(w) · e` is column `q` of `w` dotted with `e` |
| NetworkLaws.BackStepWrites | src/compact.js:259-270 | one step replaces `weights[i]` and `biases[i]` by their updates; it throws exactly when layer `i` is empty, and even then keeps the updates |
| NetworkLaws.BackStepUpdates | src/compact.js:260-267 | bias `p` grows by the scaled gradient `p`; weight `(p, q)` grows by that times cached activation `q`; the step throws exactly when layer `i` is empty |
| NetworkLaws.BackStepMovesWeights | src/compact.js:264-266 | the weight half of `BackStepUpdates` |
| NetworkLaws.BackStepCarry | src/compact.js:269-270 | the next error is `transpose(weights[i]) · errors` with the weights already updated; the next gradient is `dfunc` of the cached activation |
| NetworkLaws.BackwardFromShapes | src/compact.js:259-271 | with a matching cache, the whole backward loop keeps every shape; it throws only when the input layer is empty, and then with `ReadOfUndefined` |
| NetworkLaws.BackwardFromTop | src/compact.js:259-271 | the loop leaves transition `i` as its first step wrote it |
| Training.Repeatedly | src/compact.js:274-287 | `iter` rounds keep the structure and configuration; zero rounds change nothing; a throwing first round ends the call |
| Training.RepeatedlySplits | src/compact.js:275-286 | `a + b` rounds are `a` rounds and then, if none threw, `b` more |
| Training.RepeatedlyKeeps | src/compact.js:274-287 | a property that every round keeps and under which no round throws survives any number of rounds |
| Training.RepeatedlyAgree | src/compact.js:274-287 | two passes that agree on all states satisfying a kept property agree over any number of rounds |
| Compact.FeedForward | src/compact.js:232-248 | the input check and its untouched state; otherwise returns every unit of the last cached column, top to bottom |
| Compact.BackPropagate | src/compact.js:250-272 | throws "Invalid number of targets" exactly on a wrong target count, with no change; outputs of another length throw at `subtract` with no change; only weights and biases ever change |
| Compact.Epoch | src/compact.js:282-285 | a pass keeps the layers, learning rate, activation and well-shapedness; an empty dataset changes nothing |
| Compact.Train | src/compact.js:274-287 | `iter = 0` changes nothing; `iter = 1` is one pass; configuration is kept |
| Compact.Save | src/compact.js:202-209 | the save object holds `layers[0]`, the learning rate and every weight and bias grid |
| Compact.WrapFrom | src/compact.js:218-223 | the loop succeeds exactly when every remaining grid exists and is non-empty, and then wraps each grid unchanged |
| Compact.Deserialize | src/compact.js:211-230 | layers are `inputs` then the row count of each weight grid; weights, biases and learning rate are the saved ones; the activation is the caller's; the cache is empty |
| CompactLaws.FeedForwardActivations | src/compact.js:232-248 | on a right-length input, succeeds exactly when no layer after the input is empty; then returns the reference output activation and caches every layer's activation |
| CompactLaws.FeedForwardZeroParameters | src/compact.js:232-248 | with every weight and bias zero, every output unit is `func(0)` |
| CompactLaws.BackPropagateShapes | src/compact.js:250-272 | after a forward pass, keeps every shape and the cache; throws exactly when the input layer is empty |
| CompactLaws.BackPropagateOutputLayer | src/compact.js:255-267 | output bias `p` grows by `dfunc(outputs[p]) * (targets[p] - outputs[p]) * learningRate`; output weight `(p, q)` grows by that same scaled gradient times cached activation `q` |
| CompactLaws.OutputLayerUpdate | src/compact.js:259-267 | the output-layer update, stated for the backward loop |
| CompactLaws.OutputCarryEntries | src/compact.js:255-262 | the scaled gradient of output unit `p` is `dfunc(outputs[p]) * (targets[p] - outputs[p]) * learningRate` |
| CompactLaws.EpochShapes | src/compact.js:282-285 | on a well-shaped network with no empty layer and a fitting dataset, a pass never throws and keeps every shape |
| CompactLaws.EpochKeepsShapes | src/compact.js:282-285 | `EpochShapes` for every network with the given layers |
| CompactLaws.TrainShapes | src/compact.js:274-287 | under the same conditions, `train` never throws and keeps every shape and the layers |
| CompactLaws.TrainSplits | src/compact.js:274-287 | `a + b` passes of `train` are `a` passes and then, if none threw, `b` more |
| CompactLaws.EpochAppends | src/compact.js:282-285 | a pass over `d1 + d2` is a pass over `d1` and then, if it succeeded, one over `d2` |
| CompactLaws.DeserializeSave | src/compact.js:202-230 | `deserialize(save(net))` succeeds exactly when no layer after the input is empty, and then rebuilds the network with an empty cache |
| RowNetwork.FeedForward | src/network.js:31-47 | same input check and pass as src/compact.js; returns `[first output unit]`, or `undefined` on a 0-row output |
| RowNetwork.BackPropagate | src/network.js:49-71 | target check first; `undefined` outputs throw a TypeError with no change; outputs of another length throw at `subtract` with no change |
| RowNetwork.Epoch | src/network.js:79-82 | a pass keeps the configuration and well-shapedness; an empty dataset changes nothing |
| RowNetwork.Train | src/network.js:73-84 | `iter = 0` changes nothing; `iter = 1` is one pass |
| RowNetworkLaws.FeedForwardFirstUnit | src/network.js:31-47 | the same state and error as src/compact.js; the value is the first unit of src/compact.js's, or `undefined` when there is none |
| RowNetworkLaws.FeedForwardOneValue | src/network.js:46 | on a well-shaped network the value is exactly the first reference output activation |
| RowNetworkLaws.RowOfSingle | src/network.js:54-55 | a `1 x 1` row equals a `1 x 1` column |
| RowNetworkLaws.BackPropagateSingleOutput | src/network.js:49-71 | with one output value, `backPropagate` equals src/compact.js's |
| RowNetworkLaws.EpochWideOutput | src/network.js:46-55 | with two or more output units, the first sample throws a `subtract` mismatch and no weight or bias changes |
| RowNetworkLaws.TrainWideOutput | src/network.js:73-84 | hence `train` with `iter > 0` throws and changes no weight or bias |
| RowNetworkLaws.StepSingleOutput | src/compact.js:247 | with one output unit, src/compact.js's value has length one |
| RowNetworkLaws.EpochSingleOutput | src/network.js:79-82 | with one output unit, a pass equals src/compact.js's |
| RowNetworkLaws.TrainSingleOutput | src/network.js:73-84 | with one output unit, `train` equals src/compact.js's for any `iter` |
| Perceptrons.NewPerceptron | k_ai.js:25-33 | `size` weights holding the supplied initial values, and the supplied bias |
| Perceptrons.GetOutput | k_ai.js:40-49 | the loop accumulates `Σ weights[i] * inputs[i]` from index 0, adds the bias and applies `sigmoid` |
| Perceptrons.NewLayer | k_ai.js:74-82 | `layerSize` perceptrons, each of size `percSize`, with the supplied initial values |
| Perceptrons.LayerFeedForward | k_ai.js:89-99 | throws exactly when there are not `percSize` inputs; otherwise one output per perceptron, in order |
| Perceptrons.LayerFeedForwardLoop | k_ai.js:89-99 | the push loop computes `LayerFeedForward`, error case included |
| Perceptrons.NewNeuralNetwork | k_ai.js:125-131 | a hidden layer of `iLayer`-input perceptrons, an output layer of `hLayer`-input perceptrons, learning rate `0.1` |
| Perceptrons.FeedForward | k_ai.js:138-143 | throws exactly on a wrong input count; otherwise one value per output perceptron, computed on the hidden layer's outputs |
| Perceptrons.Step | k_ai.js:156-198 | the update keeps every layer and perceptron size and the learning rate |
| Perceptrons.Train | k_ai.js:150-199 | throws exactly on a wrong input count (before any change); otherwise keeps every size and the learning rate |
| PerceptronLaws.TrainIsStep | k_ai.js:150-153 | `train` runs the forward pass of `feedForward` and updates from its hidden and output values |
| PerceptronLaws.StepOutputLayer | k_ai.js:156-190 | output weight `(i, j)` grows by `learningRate * oDelta[i] * hidden[j]` and output bias `i` by `learningRate * oDelta[i]`, with `oDelta[i] = (targets[i] - y[i]) * dsigmoid(y[i])` |
| PerceptronLaws.StepHiddenLayer | k_ai.js:168-198 | hidden weight `(i, j)` grows by `learningRate * hDelta[i] * inputs[j]` and hidden bias `i` by `learningRate * hDelta[i]`, where `hDelta` reads the output weights before their update |
| PerceptronLaws.UpdateLayerByZero | k_ai.js:184-198 | zero deltas leave a layer unchanged |
| PerceptronLaws.TrainAtTargets | k_ai.js:150-199 | when `feedForward` already returns the targets, `train` changes nothing |
| PerceptronLaws.TrainReadsOldOutputWeights | k_ai.js:168-190 | on a concrete `1-1-1` network with all weights `1`, the hidden delta `0.03125` is read from the old output weight `1`; the hidden weight becomes `1.003125`; the new output weight `1.00625` would give a different delta |
| PerceptronLaws.FeedForwardZeroOutputWeights | k_ai.js:138-143 | when every output weight is `0`, `feedForward` succeeds on any input of the right length and output `k` is `sigmoid(bias_k)` (the `getOutput` sum of k_ai.js:40-48 is `0`), whatever the inputs |

Some functions model source lines but have no row of their own, because the rows above state their behaviour through the members that use them:
- `Perceptrons.DSigmoid`, `OutputDeltas`, `HiddenDeltas` and `UpdateLayer`, through `PerceptronLaws.StepOutputLayer` and `StepHiddenLayer`;
- `NetworkCore.LayerStep` and `ForwardFrom`, through `NetworkLaws.LayerStepOnColumn` and `ForwardFromActivations`;
- `NetworkCore.ScaledGradient` and `UpdatedWeights`, through `NetworkLaws.ScaledGradientEntries` and `UpdatedWeightsEntries`;
- `Matrices.ZipWith`, through `Matrices.Add`, `Subtract` and `DotMultiply`.

## Left out

- Random initialisation (`Matrix.random`, `Math.random` in the `Perceptron` constructor) is replaced by caller-supplied initial values. Any values are allowed, which also covers src/matrix.js:23 filling each row of a random matrix with one repeated value.
- Floating point is not modelled: arithmetic is exact on `real`, with no rounding, `NaN` or infinities.
- The concrete activations (`SIGMOID`, `TANH` in src/compact.js and src/activations.js, `sigmoid` in k_ai.js) are parameters; their exponentials are not expressible over `real`.
- The Matrix constructor's `null`-filled grid is not modelled; every matrix the library uses comes from `zeros`, `random` or `from`.
- JSON is not modelled: `Matrix.serialized`/`desirialize`, the `JSON.stringify` of `save`, and the `JSON.parse` of `deserialize`. `deserialize` starts from the parsed object, `SaveData`.
- The perceptron design's `serialize`/`deserialize` are not modelled, for the same reason.
- src/network.js `save` is not modelled; it computes a string and returns nothing.
- The progress `console.log` of `train` is left out; it has no effect on the network.
- src/main.js (a demo script) and the module export at k_ai.js:220-221 are left out.
- Compact.Train: `iter` is a natural number; a fractional or negative `iter` is not modelled.
- RowNetwork.Train: `iter` is a natural number; a fractional or negative `iter` (src/network.js:73, which runs no rounds for a negative one and `floor(iter)` rounds for a fractional one) is not modelled.
- Compact.Save: requires a non-empty `layers`, because the saved `inputs` would be `undefined` otherwise.
- Perceptrons.GetOutput: requires at most as many inputs as weights, because an extra input reads `weights[i]` as `undefined` and gives `NaN`. In a layer built by the constructors the counts are equal.
- Perceptrons.Train: requires at least one target per output perceptron, because a missing target gives `NaN` entries, which `real` cannot represent.
- Perceptrons.Train: requires `NetworkValid`, the shape the constructor builds and `train` keeps. Layers with inconsistent sizes come only from the omitted `deserialize`.
- Matrices.Multiply: requires a rectangular grid (`Valid`). The loops of src/matrix.js:48-131 run up to `cols`, which `Matrix.from` takes from row 0. A row shorter than `cols` makes the JavaScript read `undefined` and yield `NaN` or `undefined` entries, which `real` cannot represent. A row longer than `cols` is accepted, and its entries past `cols` are ignored; that case is not modelled either, so such a grid (for example from hand-edited save data) also falls outside `Structured`.
- Matrices.MultiplyLoop: requires a rectangular grid (`Valid`). The loops of src/matrix.js:48-131 run up to `cols`, which `Matrix.from` takes from row 0. A row shorter than `cols` makes the JavaScript read `undefined` and yield `NaN` or `undefined` entries, which `real` cannot represent. A row longer than `cols` is accepted, and its entries past `cols` are ignored; that case is not modelled either, so such a grid (for example from hand-edited save data) also falls outside `Structured`.
- Matrices.ZipWith: requires a rectangular grid (`Valid`). The loops of src/matrix.js:48-131 run up to `cols`, which `Matrix.from` takes from row 0. A row shorter than `cols` makes the JavaScript read `undefined` and yield `NaN` or `undefined` entries, which `real` cannot represent. A row longer than `cols` is accepted, and its entries past `cols` are ignored; that case is not modelled either, so such a grid (for example from hand-edited save data) also falls outside `Structured`.
- Matrices.ZipWithLoop: requires a rectangular grid (`Valid`). The loops of src/matrix.js:48-131 run up to `cols`, which `Matrix.from` takes from row 0. A row shorter than `cols` makes the JavaScript read `undefined` and yield `NaN` or `undefined` entries, which `real` cannot represent. A row longer than `cols` is accepted, and its entries past `cols` are ignored; that case is not modelled either, so such a grid (for example from hand-edited save data) also falls outside `Structured`.
- Matrices.Add: requires a rectangular grid (`Valid`). The loops of src/matrix.js:48-131 run up to `cols`, which `Matrix.from` takes from row 0. A row shorter than `cols` makes the JavaScript read `undefined` and yield `NaN` or `undefined` entries, which `real` cannot represent. A row longer than `cols` is accepted, and its entries past `cols` are ignored; that case is not modelled either, so such a grid (for example from hand-edited save data) also falls outside `Structured`.
- Matrices.Subtract: requires a rectangular grid (`Valid`). The loops of src/matrix.js:48-131 run up to `cols`, which `Matrix.from` takes from row 0. A row shorter than `cols` makes the JavaScript read `undefined` and yield `NaN` or `undefined` entries, which `real` cannot represent. A row longer than `cols` is accepted, and its entries past `cols` are ignored; that case is not modelled either, so such a grid (for example from hand-edited save data) also falls outside `Structured`.
- Matrices.DotMultiply: requires a rectangular grid (`Valid`). The loops of src/matrix.js:48-131 run up to `cols`, which `Matrix.from` takes from row 0. A row shorter than `cols` makes the JavaScript read `undefined` and yield `NaN` or `undefined` entries, which `real` cannot represent. A row longer than `cols` is accepted, and its entries past `cols` are ignored; that case is not modelled either, so such a grid (for example from hand-edited save data) also falls outside `Structured`.
- Matrices.Transpose: requires a rectangular grid (`Valid`). The loops of src/matrix.js:48-131 run up to `cols`, which `Matrix.from` takes from row 0. A row shorter than `cols` makes the JavaScript read `undefined` and yield `NaN` or `undefined` entries, which `real` cannot represent. A row longer than `cols` is accepted, and its entries past `cols` are ignored; that case is not modelled either, so such a grid (for example from hand-edited save data) also falls outside `Structured`.
- Matrices.TransposeLoop: requires a rectangular grid (`Valid`). The loops of src/matrix.js:48-131 run up to `cols`, which `Matrix.from` takes from row 0. A row shorter than `cols` makes the JavaScript read `undefined` and yield `NaN` or `undefined` entries, which `real` cannot represent. A row longer than `cols` is accepted, and its entries past `cols` are ignored; that case is not modelled either, so such a grid (for example from hand-edited save data) also falls outside `Structured`.
- Convergence (for example on XOR) is not stated; it depends on the exponential in the sigmoid and on the random start.

## Findings

| source | as written | input that shows it | evidently intended | confidence | as-written member | corrected member |
|---|---|---|---|---|---|---|
| src/network.js:46 | `feedForward` returns `current.data[0]`, the first row of the output column, i.e. only the first output unit; `backPropagate` then builds a `1 x 1` row from it and a `1 x n` row from the targets | any network whose output layer has 2 or more units, e.g. layers `[1, 2]` with one sample `{inputs: [x], targets: [a, b]}`: `train(dataset, 1)` throws "Attempted to subtract matrix of incorrect dimensions" and never updates a weight | return every output unit (`current.transpose().data[0]`) and work on columns, as src/compact.js:247-256 does, so that training never throws on a well-formed dataset | high (not executed) | RowNetworkLaws.TrainWideOutput | CompactLaws.TrainShapes |

=== FILE: compact.dfy ===
/** The entry points of the `Network` class of src/compact.js: `feedForward`
    returning the whole output column, `backPropagate` on column matrices,
    `train`, and the layer reconstruction of `deserialize`. */
module Compact {
  import opened Results
  import opened Matrices
  import opened NetworkCore
  import opened Training

  /** `feedForward(inputs)`: the forward pass, then the last activation
      unwrapped as a flat list (`current.transpose().data[0]`). */
  function FeedForward(net: Network, inputs: seq<real>): (r: Outcome<seq<real>>)
    requires Structured(net)
    ensures (|net.layers| == 0 || |inputs| != net.layers[0]) <==> r.result == Err(InvalidInputs)
    ensures r.result == Err(InvalidInputs) ==> r.net == net
    ensures Structured(r.net) && SameParameters(r.net, net)
    ensures r.result.Ok? ==> |r.net.cache| == |net.layers| && r.net.cache[0] == ColumnOf(inputs)
    ensures r.result.Ok? ==> Columns(r.net.cache) && Valid(Last(r.net.cache))
    ensures r.result.Ok? ==>
              && |r.result.value| == Last(r.net.cache).rows
              && forall k :: 0 <= k < |r.result.value| ==> r.result.value[k] == Last(r.net.cache).data[k][0]
  {
    var pass := ForwardPass(net, inputs);
    match pass.result
    case Err(e) => Outcome(pass.net, Err(e))
    case Ok(last) => Outcome(pass.net, Ok(Transpose(last).data[0]))
  }

  /** `backPropagate(outputs, targets)`: the target count check, then
      `outputs` and `targets` as columns into the backward loop. */
  function BackPropagate(net: Network, outputs: seq<real>, targets: seq<real>): (r: Outcome<()>)
    requires Structured(net)
    ensures (|net.layers| == 0 || |targets| != Last(net.layers)) <==> r.result == Err(InvalidTargets)
    ensures r.result == Err(InvalidTargets) ==> r.net == net
    ensures |net.layers| > 0 && |targets| == Last(net.layers) && |outputs| != |targets| ==>
              r == Outcome(net, Err(DimensionMismatch(SubtractOp)))
    ensures Structured(r.net) && SameExceptParameters(r.net, net)
    ensures WellShaped(net) ==> WellShaped(r.net)
  {
    if |net.layers| == 0 || |targets| != Last(net.layers) then Outcome(net, Err(InvalidTargets))
    else Backward(net, ColumnOf(outputs), ColumnOf(targets))
  }

  /** One pass of `train` over the dataset: `feedForward` then
      `backPropagate` on each sample in order, stopping at the first throw. */
  function Epoch(net: Network, dataset: seq<Sample>): (r: Outcome<()>)
    requires Structured(net)
    ensures Structured(r.net) && SameConfiguration(r.net, net)
    ensures WellShaped(net) ==> WellShaped(r.net)
    ensures |dataset| == 0 ==> r == Outcome(net, Ok(()))
    decreases |dataset|
  {
    if |dataset| == 0 then Outcome(net, Ok(()))
    else
      var fed := FeedForward(net, dataset[0].inputs);
      match fed.result
      case Err(e) => Outcome(fed.net, Err(e))
      case Ok(outputs) =>
        var stepped := BackPropagate(fed.net, outputs, dataset[0].targets);
        match stepped.result
        case Err(e) => Outcome(stepped.net, Err(e))
        case Ok(_) => Epoch(stepped.net, dataset[1..])
  }

  /** `train(dataset, iter)`: `iter` passes over the dataset. */
  function Train(net: Network, dataset: seq<Sample>, iter: nat): (r: Outcome<()>)
    requires Structured(net)
    ensures Structured(r.net) && SameConfiguration(r.net, net)
    ensures iter == 0 ==> r == Outcome(net, Ok(()))
    ensures iter == 1 ==> r == Epoch(net, dataset)
  {
    Repeatedly(net, n requires Structured(n) => Epoch(n, dataset), iter)
  }

  /** The parsed save object: `inputs`, the weight and bias grids, and the
      learning rate. */
  datatype SaveData = SaveData(
    inputs: nat,
    weights: seq<seq<seq<real>>>,
    biases: seq<seq<seq<real>>>,
    learningRate: real)

  /** The object `save()` serialises. */
  function Save(net: Network): (s: SaveData)
    requires |net.layers| > 0
    ensures s.inputs == net.layers[0] && s.learningRate == net.learningRate
    ensures |s.weights| == |net.weights| && |s.biases| == |net.biases|
    ensures forall i :: 0 <= i < |net.weights| ==> s.weights[i] == net.weights[i].data
    ensures forall i :: 0 <= i < |net.biases| ==> s.biases[i] == net.biases[i].data
  {
    SaveData(
      net.layers[0],
      seq(|net.weights|, i requires 0 <= i < |net.weights| => net.weights[i].data),
      seq(|net.biases|, i requires 0 <= i < |net.biases| => net.biases[i].data),
      net.learningRate)
  }

  /** Every grid `deserialize` wraps from index `i` on exists and is non-empty. */
  predicate Wrappable(saved: SaveData, i: nat) {
    forall k :: i <= k < |saved.weights| ==>
      |saved.weights[k]| > 0 && k < |saved.biases| && |saved.biases[k]| > 0
  }

  /** The loop of `deserialize` from index `i` on: `Matrix.from` of each
      weight grid and then of the matching bias grid, throwing at the first
      grid that is empty or missing. */
  function WrapFrom(saved: SaveData, i: nat): (r: Result<(seq<Matrix>, seq<Matrix>)>)
    requires i <= |saved.weights|
    ensures r.Ok? <==> Wrappable(saved, i)
    ensures r.Err? ==> r.error == ReadOfUndefined
    ensures r.Ok? ==> |r.value.0| == |r.value.1| == |saved.weights| - i
    ensures r.Ok? ==> forall k :: i <= k < |saved.weights| ==>
                        && r.value.0[k - i] == From(saved.weights[k]).value
                        && r.value.1[k - i] == From(saved.biases[k]).value
    decreases |saved.weights| - i
  {
    if i == |saved.weights| then Ok(([], []))
    else
      var w :- From(saved.weights[i]);
      var b :- if i < |saved.biases| then From(saved.biases[i]) else Err(ReadOfUndefined);
      var rest :- WrapFrom(saved, i + 1);
      Ok(([w] + rest.0, [b] + rest.1))
  }

  /** `deserialize(data, activation)` on the parsed save object: `layers` is
      `inputs` followed by the row count of every weight grid; the
      activation is not part of the saved form and comes from the caller. */
  function Deserialize(saved: SaveData, activation: Activation): (r: Result<Network>)
    ensures r.Ok? <==> Wrappable(saved, 0)
    ensures r.Err? ==> r.error == ReadOfUndefined
    ensures r.Ok? ==>
              && |r.value.layers| == |saved.weights| + 1
              && r.value.layers[0] == saved.inputs
              && (forall i :: 0 <= i < |saved.weights| ==> r.value.layers[i + 1] == |saved.weights[i]|)
    ensures r.Ok? ==>
              && |r.value.weights| == |r.value.biases| == |saved.weights|
              && (forall i :: 0 <= i < |saved.weights| ==>
                    r.value.weights[i].data == saved.weights[i] && r.value.biases[i].data == saved.biases[i])
    ensures r.Ok? ==>
              && r.value.cache == []
              && r.value.learningRate == saved.learningRate
              && r.value.activation == activation
  {
    var layers := [saved.inputs] + seq(|saved.weights|, i requires 0 <= i < |saved.weights| => |saved.weights[i]|);
    var wrapped :- WrapFrom(saved, 0);
    Ok(Network(layers, wrapped.0, wrapped.1, [], saved.learningRate, activation))
  }
}

=== FILE: compact_laws.dfy ===
/** Properties of the src/compact.js `Network`: the forward pass computes the
    reference activations, a backward pass keeps every shape and moves the
    output layer by the scaled gradient, `train` is a sequence of such steps,
    and `deserialize` rebuilds what `save` wrote. */
module CompactLaws {
  import opened Results
  import opened Matrices
  import opened MatrixLaws
  import opened NetworkCore
  import opened NetworkLaws
  import opened Training
  import opened Compact

  /** On a well-shaped network and an input of the right length,
      `feedForward` succeeds exactly when no layer after the input is empty;
      it then returns the reference output activation, leaves the weights
      and biases alone and caches one `layers[k] x 1` column per layer. */
  lemma FeedForwardActivations(net: Network, inputs: seq<real>)
    requires WellShaped(net) && |net.layers| > 0 && |inputs| == net.layers[0]
    ensures var r := FeedForward(net, inputs);
            && (r.result.Ok? <==> NoEmptyLayerAfterInput(net.layers))
            && (r.result.Err? ==> r.result.error == ReadOfUndefined)
            && (r.result.Ok? ==> r.result.value == Last(AllActivations(net, inputs)))
            && (r.result.Ok? ==> WellShaped(r.net) && CacheMatches(r.net))
            && (r.result.Ok? ==> forall k :: 0 <= k < |net.layers| ==>
                                   r.net.cache[k] == ColumnOf(AllActivations(net, inputs)[k]))
  {
    ForwardPassActivations(net, inputs);
    var acts := AllActivations(net, inputs);
    if NoEmptyLayerAfterInput(net.layers) {
      TransposedColumn(Last(acts));
    }
  }

  /** Every weight and every bias is zero. */
  predicate ZeroParameters(net: Network)
    requires WellShaped(net)
  {
    && (forall i, p, q :: 0 <= i < |net.weights| && 0 <= p < net.layers[i + 1] && 0 <= q < net.layers[i] ==>
          net.weights[i].data[p][q] == 0.0)
    && (forall i, p :: 0 <= i < |net.biases| && 0 <= p < net.layers[i + 1] ==>
          net.biases[i].data[p][0] == 0.0)
  }

  /** With every weight and bias zero, each output unit is `func(0)` (the
      sigmoid's `0.5`), whatever the inputs. */
  lemma FeedForwardZeroParameters(net: Network, inputs: seq<real>)
    requires WellShaped(net) && |net.layers| > 1 && |inputs| == net.layers[0]
    requires NoEmptyLayerAfterInput(net.layers) && ZeroParameters(net)
    ensures var r := FeedForward(net, inputs);
            && r.result.Ok? && |r.result.value| == Last(net.layers)
            && forall k :: 0 <= k < |r.result.value| ==> r.result.value[k] == net.activation.func(0.0)
  {
    FeedForwardActivations(net, inputs);
    var acts := AllActivations(net, inputs);
    var K := |net.weights| - 1;
    assert Last(acts) == Neurons(net, K, acts[K]);
    forall k | 0 <= k < Last(net.layers)
      ensures Neurons(net, K, acts[K])[k] == net.activation.func(0.0)
    {
      DotNZeroLeft(net.weights[K].data[k], acts[K], |acts[K]|);
    }
  }

  /** Every sample has as many inputs as the input layer and as many targets
      as the output layer. */
  predicate Fits(net: Network, dataset: seq<Sample>) {
    && |net.layers| > 0
    && forall j :: 0 <= j < |dataset| ==>
         |dataset[j].inputs| == net.layers[0] && |dataset[j].targets| == Last(net.layers)
  }

  /** After a forward pass, `backPropagate` with outputs and targets of the
      output layer's length keeps every weight and bias shape and the cache;
      it throws only when the input layer is empty. */
  lemma BackPropagateShapes(net: Network, outputs: seq<real>, targets: seq<real>)
    requires WellShaped(net) && CacheMatches(net) && |net.layers| > 0
    requires NoEmptyLayerAfterInput(net.layers)
    requires |outputs| == |targets| == Last(net.layers)
    ensures var r := BackPropagate(net, outputs, targets);
            && WellShaped(r.net) && CacheMatches(r.net) && SameExceptParameters(r.net, net)
            && (r.result.Ok? <==> net.layers[0] > 0)
            && (r.result.Err? ==> r.result.error == ReadOfUndefined)
  {
    var parsed := ColumnOf(outputs);
    var wanted := ColumnOf(targets);
    if Last(net.layers) > 0 {
      var errors := Subtract(wanted, parsed).value;
      var gradients := Map(parsed, net.activation.dfunc).value;
      BackwardFromShapes(net, |net.weights| - 1, Carry(errors, gradients));
    }
  }

  /** The first step of `backPropagate` on the output transition `K`: bias
      `p` grows by `OutputDelta(p)`, that is
      `dfunc(outputs[p]) * (targets[p] - outputs[p]) * learningRate`, and
      weight `(p, q)` by the scaled gradient `p` of the step, which is that
      same amount, times the cached activation `q` of layer `K`. Later steps
      never touch transition `K` again, whether or not they throw. */
  lemma BackPropagateOutputLayer(net: Network, outputs: seq<real>, targets: seq<real>)
    requires WellShaped(net) && CacheMatches(net) && |net.layers| > 1
    requires NoEmptyLayerAfterInput(net.layers)
    requires |outputs| == |targets| == Last(net.layers)
    ensures var r := BackPropagate(net, outputs, targets);
            var K := |net.weights| - 1;
            var c := OutputCarry(net, outputs, targets);
            && HasShape(c.errors, |outputs|, 1) && HasShape(c.gradients, |outputs|, 1)
            && (forall p :: 0 <= p < Last(net.layers) ==>
                  Scaled(net, c, p) == OutputDelta(net, outputs, targets, p))
            && (forall p :: 0 <= p < Last(net.layers) ==>
                  r.net.biases[K].data[p][0]
                    == net.biases[K].data[p][0]
                       + OutputDelta(net, outputs, targets, p))
            && WeightsMoved(net, K, c, r.net.weights[K])
  {
    BackPropagateStarts(net, outputs, targets);
    OutputLayerUpdate(net, outputs, targets);
  }

  /** On outputs and targets of the output layer's length, `backPropagate`
      is the backward loop from the last transition on `OutputCarry`. */
  lemma BackPropagateStarts(net: Network, outputs: seq<real>, targets: seq<real>)
    requires Structured(net) && |net.layers| > 1
    requires |outputs| == |targets| == Last(net.layers) > 0
    ensures BackPropagate(net, outputs, targets)
              == BackwardFrom(net, |net.weights| - 1, OutputCarry(net, outputs, targets))
  {
  }

  /** `BackPropagateOutputLayer` for the backward loop on `OutputCarry`. */
  lemma OutputLayerUpdate(net: Network, outputs: seq<real>, targets: seq<real>)
    requires WellShaped(net) && CacheMatches(net) && |net.layers| > 1
    requires NoEmptyLayerAfterInput(net.layers)
    requires |outputs| == |targets| == Last(net.layers)
    ensures var K := |net.weights| - 1;
            var c := OutputCarry(net, outputs, targets);
            var r := BackwardFrom(net, K, c);
            && HasShape(c.errors, |outputs|, 1) && HasShape(c.gradients, |outputs|, 1)
            && (forall p :: 0 <= p < Last(net.layers) ==>
                  Scaled(net, c, p) == OutputDelta(net, outputs, targets, p))
            && (forall p :: 0 <= p < Last(net.layers) ==>
                  r.net.biases[K].data[p][0]
                    == net.biases[K].data[p][0]
                       + OutputDelta(net, outputs, targets, p))
            && WeightsMoved(net, K, c, r.net.weights[K])
  {
    var K := |net.weights| - 1;
    var c := OutputCarry(net, outputs, targets);
    OutputCarryEntries(net, outputs, targets);
    BackwardFromTop(net, K, c);
    BackStepUpdates(net, K, c);
  }

  /** The learning-rate-scaled gradient of output unit `p`:
      `dfunc(outputs[p]) * (targets[p] - outputs[p]) * learningRate`. */
  function OutputDelta(net: Network, outputs: seq<real>, targets: seq<real>, p: nat): real
    requires p < |outputs| && p < |targets|
  {
    net.activation.dfunc(outputs[p]) * (targets[p] - outputs[p]) * net.learningRate
  }

  /** What `backPropagate` hands its loop: the errors `targets - outputs`
      and the gradients `dfunc(outputs)`, as columns. */
  function OutputCarry(net: Network, outputs: seq<real>, targets: seq<real>): Carry
    requires |outputs| == |targets| > 0
  {
    var parsed := ColumnOf(outputs);
    Carry(Subtract(ColumnOf(targets), parsed).value, Map(parsed, net.activation.dfunc).value)
  }

  /** The scaled gradient of output unit `p` is
      `dfunc(outputs[p]) * (targets[p] - outputs[p]) * learningRate`. */
  lemma OutputCarryEntries(net: Network, outputs: seq<real>, targets: seq<real>)
    requires |outputs| == |targets| > 0
    ensures var c := OutputCarry(net, outputs, targets);
            && HasShape(c.errors, |outputs|, 1) && HasShape(c.gradients, |outputs|, 1)
            && (forall p :: 0 <= p < |outputs| ==>
                  Scaled(net, c, p) == OutputDelta(net, outputs, targets, p))
  {
  }

  /** On a well-shaped network with no empty layer and a dataset that fits
      it, one pass of `train` throws nothing and keeps every shape. */
  lemma {:induction false} EpochShapes(net: Network, dataset: seq<Sample>)
    requires WellShaped(net) && Positive(net.layers) && Fits(net, dataset)
    ensures var r := Epoch(net, dataset);
            && r.result.Ok? && WellShaped(r.net)
            && (|dataset| > 0 ==> CacheMatches(r.net))
    decreases |dataset|
  {
    if |dataset| > 0 {
      var next := SampleShapes(net, dataset[0]);
      var rest := dataset[1..];
      assert dataset == [dataset[0]] + rest;
      assert Epoch(net, dataset) == Epoch(next, rest);
      if |rest| > 0 {
        assert Fits(next, rest);
        EpochShapes(next, rest);
      }
    }
  }

  /** One sample of `train` on a well-shaped network with no empty layer:
      neither pass throws, and the network keeps its layers and shapes. */
  lemma SampleShapes(net: Network, sample: Sample) returns (next: Network)
    requires WellShaped(net) && Positive(net.layers) && |net.layers| > 0
    requires |sample.inputs| == net.layers[0] && |sample.targets| == Last(net.layers)
    ensures next.layers == net.layers && WellShaped(next) && CacheMatches(next)
    ensures forall rest: seq<Sample> {:trigger Epoch(net, [sample] + rest)} ::
              Epoch(net, [sample] + rest) == Epoch(next, rest)
  {
    FeedForwardActivations(net, sample.inputs);
    var fed := FeedForward(net, sample.inputs);
    BackPropagateShapes(fed.net, fed.result.value, sample.targets);
    next := BackPropagate(fed.net, fed.result.value, sample.targets).net;
    forall rest: seq<Sample> ensures Epoch(net, [sample] + rest) == Epoch(next, rest) {
      assert ([sample] + rest)[0] == sample && ([sample] + rest)[1..] == rest;
    }
  }

  /** `EpochShapes` for every network with the given layers. */
  lemma EpochKeepsShapes(layers: seq<nat>, dataset: seq<Sample>)
    requires Positive(layers) && |layers| > 0
    requires forall j :: 0 <= j < |dataset| ==>
               |dataset[j].inputs| == layers[0] && |dataset[j].targets| == Last(layers)
    ensures forall n {:trigger Epoch(n, dataset)} :: WellShaped(n) && n.layers == layers ==>
              Epoch(n, dataset).result.Ok? && WellShaped(Epoch(n, dataset).net)
  {
    forall n | WellShaped(n) && n.layers == layers
      ensures Epoch(n, dataset).result.Ok? && WellShaped(Epoch(n, dataset).net)
    {
      EpochShapes(n, dataset);
    }
  }

  /** `train` on a well-shaped network with no empty layer and a fitting
      dataset throws nothing and leaves every weight and bias with its
      shape. */
  lemma TrainShapes(net: Network, dataset: seq<Sample>, iter: nat)
    requires WellShaped(net) && Positive(net.layers) && Fits(net, dataset)
    ensures var r := Train(net, dataset, iter);
            r.result.Ok? && WellShaped(r.net) && r.net.layers == net.layers
  {
    var pass := n requires Structured(n) => Epoch(n, dataset);
    var inv := (n: Network) => WellShaped(n) && n.layers == net.layers;
    EpochKeepsShapes(net.layers, dataset);
    assert forall n {:trigger pass(n)} :: Structured(n) && inv(n) ==> pass(n).result.Ok? && inv(pass(n).net);
    RepeatedlyKeeps(net, pass, iter, inv);
  }

  /** `a + b` passes of `train` are `a` passes followed, if none threw, by
      `b` more from the state they left. */
  lemma TrainSplits(net: Network, dataset: seq<Sample>, a: nat, b: nat)
    requires Structured(net)
    ensures var first := Train(net, dataset, a);
            Train(net, dataset, a + b) == if first.result.Err? then first else Train(first.net, dataset, b)
  {
    RepeatedlySplits(net, n requires Structured(n) => Epoch(n, dataset), a, b);
  }

  /** A pass over `d1 + d2` is a pass over `d1` followed, if it succeeded, by
      a pass over `d2`: samples are visited in order. */
  lemma {:induction false} EpochAppends(net: Network, d1: seq<Sample>, d2: seq<Sample>)
    requires Structured(net)
    ensures var first := Epoch(net, d1);
            Epoch(net, d1 + d2) == if first.result.Err? then first else Epoch(first.net, d2)
    decreases |d1|
  {
    if |d1| > 0 {
      assert (d1 + d2)[0] == d1[0];
      assert (d1 + d2)[1..] == d1[1..] + d2;
      var fed := FeedForward(net, d1[0].inputs);
      if fed.result.Ok? {
        var stepped := BackPropagate(fed.net, fed.result.value, d1[0].targets);
        if stepped.result.Ok? {
          EpochAppends(stepped.net, d1[1..], d2);
        }
      }
    } else {
      assert d1 + d2 == d2;
    }
  }

  /** `deserialize` of what `save` wrote rebuilds the layers, weights,
      biases and learning rate of a well-shaped network (with an empty cache
      and the activation the caller passes), provided no layer after the
      input is empty: an empty weight grid makes `Matrix.from` throw. */
  lemma DeserializeSave(net: Network)
    requires WellShaped(net) && |net.layers| > 0
    ensures Deserialize(Save(net), net.activation).Ok? <==> NoEmptyLayerAfterInput(net.layers)
    ensures NoEmptyLayerAfterInput(net.layers) ==>
              Deserialize(Save(net), net.activation) == Ok(net.(cache := []))
  {
    var saved := Save(net);
    if NoEmptyLayerAfterInput(net.layers) {
      forall k | 0 <= k < |saved.weights|
        ensures |saved.weights[k]| > 0 && k < |saved.biases| && |saved.biases[k]| > 0
      {
        assert HasShape(net.weights[k], net.layers[k + 1], net.layers[k]);
        assert HasShape(net.biases[k], net.layers[k + 1], 1);
        assert net.layers[k + 1] > 0;
      }
      assert Wrappable(saved, 0);
      var r := Deserialize(saved, net.activation).value;
      forall i | 0 <= i < |net.weights|
        ensures r.weights[i] == net.weights[i] && r.biases[i] == net.biases[i]
        ensures r.layers[i + 1] == net.layers[i + 1]
      {
        assert HasShape(net.weights[i], net.layers[i + 1], net.layers[i]);
        assert HasShape(net.biases[i], net.layers[i + 1], 1);
      }
      assert r.layers == net.layers;
      assert r.weights == net.weights;
      assert r.biases == net.biases;
    } else {
      var k :| 1 <= k < |net.layers| && net.layers[k] == 0;
      assert HasShape(net.weights[k - 1], net.layers[k], net.layers[k - 1]);
      assert saved.weights[k - 1] == [];
    }
  }
}

=== FILE: matrix.dfy ===
/** The dense `rows x cols` matrix of src/matrix.js (duplicated verbatim as the
    `Matrix` class of src/compact.js), over exact real arithmetic.

    A matrix keeps its two size fields next to its grid, as the class does:
    `Matrix.from` wraps any non-empty grid without looking at the other rows,
    so a grid whose rows disagree in length is representable and `Valid`
    says when the fields and the grid agree. */
module Matrices {
  import opened Results

  datatype Matrix = Matrix(rows: nat, cols: nat, data: seq<seq<real>>)

  /** The grid has `rows` rows of `cols` entries each. */
  predicate Valid(m: Matrix) {
    && |m.data| == m.rows
    && forall i :: 0 <= i < |m.data| ==> |m.data[i]| == m.cols
  }

  predicate HasShape(m: Matrix, rows: nat, cols: nat) {
    Valid(m) && m.rows == rows && m.cols == cols
  }

  predicate SameShape(a: Matrix, b: Matrix) {
    a.rows == b.rows && a.cols == b.cols
  }

  /** The sum of `u[k] * v[k]` over `k < n`, accumulated from `k = 0` upwards
      as the inner loop of `multiply` does. */
  function DotN(u: seq<real>, v: seq<real>, n: nat): real
    requires n <= |u| && n <= |v|
  {
    if n == 0 then 0.0 else DotN(u, v, n - 1) + u[n - 1] * v[n - 1]
  }

  function Dot(u: seq<real>, v: seq<real>): real
    requires |u| == |v|
  {
    DotN(u, v, |u|)
  }

  /** Column `j` of a valid matrix, top to bottom. */
  function Column(m: Matrix, j: nat): (c: seq<real>)
    requires Valid(m) && j < m.cols
    ensures |c| == m.rows
    ensures forall k :: 0 <= k < m.rows ==> c[k] == m.data[k][j]
  {
    seq(m.rows, k requires 0 <= k < m.rows => m.data[k][j])
  }

  /** `Matrix.zeros(rows, cols)`: `rows` fresh rows of `cols` zeros. */
  function Zeros(rows: nat, cols: nat): (m: Matrix)
    ensures HasShape(m, rows, cols)
    ensures forall i, j :: 0 <= i < rows && 0 <= j < cols ==> m.data[i][j] == 0.0
  {
    Matrix(rows, cols, seq(rows, _ => seq(cols, _ => 0.0)))
  }

  /** `Matrix.from(d)`: takes its row count from `d` and its column count from
      `d[0]` (reading `d[0].length` throws when `d` is empty) and keeps `d`
      itself as the grid. */
  function From(d: seq<seq<real>>): (r: Result<Matrix>)
    ensures r.Err? <==> |d| == 0
    ensures r.Err? ==> r.error == ReadOfUndefined
    ensures r.Ok? ==> r.value.data == d && r.value.rows == |d| && r.value.cols == |d[0]|
    ensures r.Ok? ==> (Valid(r.value) <==> forall i :: 0 <= i < |d| ==> |d[i]| == |d[0]|)
  {
    if |d| == 0 then Err(ReadOfUndefined) else Ok(Matrix(|d|, |d[0]|, d))
  }

  /** `a.multiply(b)`: the matrix product, defined only when the inner
      dimensions agree. */
  function Multiply(a: Matrix, b: Matrix): (r: Result<Matrix>)
    requires Valid(a) && Valid(b)
    ensures r.Err? <==> a.cols != b.rows
    ensures r.Err? ==> r.error == DimensionMismatch(MultiplyOp)
    ensures r.Ok? ==> HasShape(r.value, a.rows, b.cols)
    ensures r.Ok? ==> forall i, j :: 0 <= i < a.rows && 0 <= j < b.cols ==>
                        r.value.data[i][j] == Dot(a.data[i], Column(b, j))
  {
    if a.cols != b.rows then Err(DimensionMismatch(MultiplyOp))
    else
      Ok(Matrix(a.rows, b.cols,
        seq(a.rows, i requires 0 <= i < a.rows =>
          seq(b.cols, j requires 0 <= j < b.cols => Dot(a.data[i], Column(b, j))))))
  }

  /** The shared shape of `add`, `subtract` and `dotMultiply`: a fresh matrix
      combining the two operands entry by entry with `f`, after a check that
      both have the same `rows` and `cols`. */
  function ZipWith(a: Matrix, b: Matrix, f: (real, real) -> real, op: Op): (r: Result<Matrix>)
    requires Valid(a) && Valid(b)
    ensures r.Err? <==> !SameShape(a, b)
    ensures r.Err? ==> r.error == DimensionMismatch(op)
    ensures r.Ok? ==> HasShape(r.value, a.rows, a.cols)
    ensures r.Ok? ==> forall i, j :: 0 <= i < a.rows && 0 <= j < a.cols ==>
                        r.value.data[i][j] == f(a.data[i][j], b.data[i][j])
  {
    if !SameShape(a, b) then Err(DimensionMismatch(op))
    else
      Ok(Matrix(a.rows, a.cols,
        seq(a.rows, i requires 0 <= i < a.rows =>
          seq(a.cols, j requires 0 <= j < a.cols => f(a.data[i][j], b.data[i][j])))))
  }

  /** `a.add(b)` */
  function Add(a: Matrix, b: Matrix): (r: Result<Matrix>)
    requires Valid(a) && Valid(b)
    ensures r.Err? <==> !SameShape(a, b)
    ensures r.Err? ==> r.error == DimensionMismatch(AddOp)
    ensures r.Ok? ==> HasShape(r.value, a.rows, a.cols)
    ensures r.Ok? ==> forall i, j :: 0 <= i < a.rows && 0 <= j < a.cols ==>
                        r.value.data[i][j] == a.data[i][j] + b.data[i][j]
  {
    ZipWith(a, b, (x, y) => x + y, AddOp)
  }

  /** `a.subtract(b)` */
  function Subtract(a: Matrix, b: Matrix): (r: Result<Matrix>)
    requires Valid(a) && Valid(b)
    ensures r.Err? <==> !SameShape(a, b)
    ensures r.Err? ==> r.error == DimensionMismatch(SubtractOp)
    ensures r.Ok? ==> HasShape(r.value, a.rows, a.cols)
    ensures r.Ok? ==> forall i, j :: 0 <= i < a.rows && 0 <= j < a.cols ==>
                        r.value.data[i][j] == a.data[i][j] - b.data[i][j]
  {
    ZipWith(a, b, (x, y) => x - y, SubtractOp)
  }

  /** `a.dotMultiply(b)`: the entry-wise (Hadamard) product. */
  function DotMultiply(a: Matrix, b: Matrix): (r: Result<Matrix>)
    requires Valid(a) && Valid(b)
    ensures r.Err? <==> !SameShape(a, b)
    ensures r.Err? ==> r.error == DimensionMismatch(DotMultiplyOp)
    ensures r.Ok? ==> HasShape(r.value, a.rows, a.cols)
    ensures r.Ok? ==> forall i, j :: 0 <= i < a.rows && 0 <= j < a.cols ==>
                        r.value.data[i][j] == a.data[i][j] * b.data[i][j]
  {
    ZipWith(a, b, (x, y) => x * y, DotMultiplyOp)
  }

  /** `m.map(f)`: maps every row of the grid and wraps the new grid with
      `Matrix.from`, which throws on a grid with no rows. */
  function Map(m: Matrix, f: real -> real): (r: Result<Matrix>)
    ensures r.Err? <==> |m.data| == 0
    ensures r.Err? ==> r.error == ReadOfUndefined
    ensures r.Ok? ==> |r.value.data| == |m.data|
    ensures r.Ok? ==> forall i :: 0 <= i < |m.data| ==>
                        && |r.value.data[i]| == |m.data[i]|
                        && forall j :: 0 <= j < |m.data[i]| ==> r.value.data[i][j] == f(m.data[i][j])
    ensures r.Ok? && Valid(m) ==> HasShape(r.value, m.rows, m.cols)
    ensures r.Ok? && Valid(m) ==> forall i, j :: 0 <= i < m.rows && 0 <= j < m.cols ==>
                                    r.value.data[i][j] == f(m.data[i][j])
  {
    From(seq(|m.data|, i requires 0 <= i < |m.data| =>
      seq(|m.data[i]|, j requires 0 <= j < |m.data[i]| => f(m.data[i][j]))))
  }

  /** `m.transpose()` */
  function Transpose(m: Matrix): (t: Matrix)
    requires Valid(m)
    ensures HasShape(t, m.cols, m.rows)
    ensures forall i, j :: 0 <= i < m.rows && 0 <= j < m.cols ==> t.data[j][i] == m.data[i][j]
  {
    Matrix(m.cols, m.rows, seq(m.cols, j requires 0 <= j < m.cols => Column(m, j)))
  }

  /** The `n x n` identity matrix (used to state laws of `Multiply`). */
  function Identity(n: nat): (m: Matrix)
    ensures HasShape(m, n, n)
  {
    Matrix(n, n, seq(n, i => seq(n, j => if i == j then 1.0 else 0.0)))
  }

  /** The triple loop of `multiply`, writing each accumulated sum into a
      zero matrix; it computes the product `Multiply` defines. */
  method MultiplyLoop(a: Matrix, b: Matrix) returns (r: Result<Matrix>)
    requires Valid(a) && Valid(b)
    ensures r == Multiply(a, b)
  {
    if a.cols != b.rows {
      return Err(DimensionMismatch(MultiplyOp));
    }
    var res := Zeros(a.rows, b.cols).data;
    var i := 0;
    while i < a.rows
      invariant 0 <= i <= a.rows
      invariant |res| == a.rows
      invariant forall p :: 0 <= p < a.rows ==> |res[p]| == b.cols
      invariant forall p, q :: 0 <= p < i && 0 <= q < b.cols ==>
                  res[p][q] == Dot(a.data[p], Column(b, q))
    {
      var j := 0;
      while j < b.cols
        invariant 0 <= j <= b.cols
        invariant |res| == a.rows
        invariant forall p :: 0 <= p < a.rows ==> |res[p]| == b.cols
        invariant forall p, q :: 0 <= p < i && 0 <= q < b.cols ==>
                    res[p][q] == Dot(a.data[p], Column(b, q))
        invariant forall q :: 0 <= q < j ==> res[i][q] == Dot(a.data[i], Column(b, q))
      {
        var sum := 0.0;
        var k := 0;
        while k < a.cols
          invariant 0 <= k <= a.cols
          invariant sum == DotN(a.data[i], Column(b, j), k)
        {
          sum := sum + a.data[i][k] * b.data[k][j];
          k := k + 1;
        }
        res := res[i := res[i][j := sum]];
        j := j + 1;
      }
      i := i + 1;
    }
    var product := Multiply(a, b);
    forall p | 0 <= p < a.rows
      ensures res[p] == product.value.data[p]
    {
      assert forall q :: 0 <= q < b.cols ==> res[p][q] == product.value.data[p][q];
    }
    assert res == product.value.data;
    r := Ok(Matrix(a.rows, b.cols, res));
  }

  /** The double loop shared by `add`, `subtract` and `dotMultiply`. */
  method ZipWithLoop(a: Matrix, b: Matrix, f: (real, real) -> real, op: Op) returns (r: Result<Matrix>)
    requires Valid(a) && Valid(b)
    ensures r == ZipWith(a, b, f, op)
  {
    if a.rows != b.rows || a.cols != b.cols {
      return Err(DimensionMismatch(op));
    }
    var res := Zeros(a.rows, a.cols).data;
    var i := 0;
    while i < a.rows
      invariant 0 <= i <= a.rows
      invariant |res| == a.rows
      invariant forall p :: 0 <= p < a.rows ==> |res[p]| == a.cols
      invariant forall p, q :: 0 <= p < i && 0 <= q < a.cols ==>
                  res[p][q] == f(a.data[p][q], b.data[p][q])
    {
      var j := 0;
      while j < a.cols
        invariant 0 <= j <= a.cols
        invariant |res| == a.rows
        invariant forall p :: 0 <= p < a.rows ==> |res[p]| == a.cols
        invariant forall p, q :: 0 <= p < i && 0 <= q < a.cols ==>
                    res[p][q] == f(a.data[p][q], b.data[p][q])
        invariant forall q :: 0 <= q < j ==> res[i][q] == f(a.data[i][q], b.data[i][q])
      {
        res := res[i := res[i][j := f(a.data[i][j], b.data[i][j])]];
        j := j + 1;
      }
      i := i + 1;
    }
    var zipped := ZipWith(a, b, f, op);
    forall p | 0 <= p < a.rows
      ensures res[p] == zipped.value.data[p]
    {
      assert forall q :: 0 <= q < a.cols ==> res[p][q] == zipped.value.data[p][q];
    }
    assert res == zipped.value.data;
    r := Ok(Matrix(a.rows, a.cols, res));
  }

  /** The double loop of `transpose`, writing `res[j][i]` into a
      `cols x rows` zero matrix. */
  method TransposeLoop(m: Matrix) returns (t: Matrix)
    requires Valid(m)
    ensures t == Transpose(m)
  {
    var res := Zeros(m.cols, m.rows).data;
    var i := 0;
    while i < m.rows
      invariant 0 <= i <= m.rows
      invariant |res| == m.cols
      invariant forall q :: 0 <= q < m.cols ==> |res[q]| == m.rows
      invariant forall p, q :: 0 <= p < i && 0 <= q < m.cols ==> res[q][p] == m.data[p][q]
    {
      var j := 0;
      while j < m.cols
        invariant 0 <= j <= m.cols
        invariant |res| == m.cols
        invariant forall q :: 0 <= q < m.cols ==> |res[q]| == m.rows
        invariant forall p, q :: 0 <= p < i && 0 <= q < m.cols ==> res[q][p] == m.data[p][q]
        invariant forall q :: 0 <= q < j ==> res[q][i] == m.data[i][q]
      {
        res := res[j := res[j][i := m.data[i][j]]];
        j := j + 1;
      }
      i := i + 1;
    }
    var expected := Transpose(m);
    forall q | 0 <= q < m.cols
      ensures res[q] == expected.data[q]
    {
      assert forall p :: 0 <= p < m.rows ==> res[q][p] == expected.data[q][p];
    }
    assert res == expected.data;
    t := Matrix(m.cols, m.rows, res);
  }
}

=== FILE: matrix_laws.dfy ===
/** Algebraic laws of the matrix operations over exact real arithmetic: the
    identity matrix, transposition as an involution and its interaction with
    the product, and `add`/`subtract` undoing each other. */
module MatrixLaws {
  import opened Results
  import opened Matrices

  /** Two valid matrices of one shape that agree entry by entry are equal. */
  lemma EqualByEntries(a: Matrix, b: Matrix)
    requires Valid(a) && Valid(b) && SameShape(a, b)
    requires forall i, j :: 0 <= i < a.rows && 0 <= j < a.cols ==> a.data[i][j] == b.data[i][j]
    ensures a == b
  {
    forall i | 0 <= i < a.rows
      ensures a.data[i] == b.data[i]
    {
      assert forall j :: 0 <= j < a.cols ==> a.data[i][j] == b.data[i][j];
    }
  }

  lemma {:induction false} DotNSwap(u: seq<real>, v: seq<real>, n: nat)
    requires n <= |u| && n <= |v|
    ensures DotN(u, v, n) == DotN(v, u, n)
  {
    if n > 0 {
      DotNSwap(u, v, n - 1);
    }
  }

  /** A sum with every left factor zero is zero. */
  lemma {:induction false} DotNZeroLeft(u: seq<real>, v: seq<real>, n: nat)
    requires n <= |u| && n <= |v|
    requires forall k :: 0 <= k < n ==> u[k] == 0.0
    ensures DotN(u, v, n) == 0.0
  {
    if n > 0 {
      DotNZeroLeft(u, v, n - 1);
    }
  }

  /** Against the `j`-th unit vector, a dot product picks out entry `j`. */
  lemma {:induction false} DotNUnit(u: seq<real>, e: seq<real>, j: nat, n: nat)
    requires n <= |u| && n <= |e|
    requires forall k :: 0 <= k < |e| ==> e[k] == if k == j then 1.0 else 0.0
    ensures DotN(u, e, n) == if j < n then u[j] else 0.0
  {
    if n > 0 {
      DotNUnit(u, e, j, n - 1);
    }
  }

  /** Multiplying by the identity on either side gives the matrix back. */
  lemma MultiplyIdentity(a: Matrix)
    requires Valid(a)
    ensures Multiply(a, Identity(a.cols)) == Ok(a)
    ensures Multiply(Identity(a.rows), a) == Ok(a)
  {
    var right := Multiply(a, Identity(a.cols)).value;
    forall i, j | 0 <= i < a.rows && 0 <= j < a.cols
      ensures right.data[i][j] == a.data[i][j]
    {
      DotNUnit(a.data[i], Column(Identity(a.cols), j), j, a.cols);
    }
    EqualByEntries(right, a);

    var left := Multiply(Identity(a.rows), a).value;
    forall i, j | 0 <= i < a.rows && 0 <= j < a.cols
      ensures left.data[i][j] == a.data[i][j]
    {
      var e := Identity(a.rows).data[i];
      DotNSwap(e, Column(a, j), a.rows);
      DotNUnit(Column(a, j), e, i, a.rows);
    }
    EqualByEntries(left, a);
  }

  /** Transposing twice yields the original grid. */
  lemma TransposeInvolution(m: Matrix)
    requires Valid(m)
    ensures Transpose(Transpose(m)) == m
  {
    EqualByEntries(Transpose(Transpose(m)), m);
  }

  /** The transpose of a product is the product of the transposes, in the
      opposite order. */
  lemma MultiplyTranspose(a: Matrix, b: Matrix)
    requires Valid(a) && Valid(b) && a.cols == b.rows
    ensures Multiply(Transpose(b), Transpose(a)) == Ok(Transpose(Multiply(a, b).value))
  {
    var ab := Multiply(a, b).value;
    var lhs := Multiply(Transpose(b), Transpose(a)).value;
    var rhs := Transpose(ab);
    forall j, i | 0 <= j < b.cols && 0 <= i < a.rows
      ensures lhs.data[j][i] == rhs.data[j][i]
    {
      assert Transpose(b).data[j] == Column(b, j);
      assert Column(Transpose(a), i) == a.data[i];
      DotNSwap(Column(b, j), a.data[i], a.cols);
    }
    EqualByEntries(lhs, rhs);
  }

  /** `a.add(b).subtract(b)` is `a` again. */
  lemma AddThenSubtract(a: Matrix, b: Matrix)
    requires Valid(a) && Valid(b) && SameShape(a, b)
    ensures Add(a, b).Ok?
    ensures Subtract(Add(a, b).value, b) == Ok(a)
  {
    EqualByEntries(Subtract(Add(a, b).value, b).value, a);
  }

  /** `a.subtract(b).add(b)` is `a` again. */
  lemma SubtractThenAdd(a: Matrix, b: Matrix)
    requires Valid(a) && Valid(b) && SameShape(a, b)
    ensures Subtract(a, b).Ok?
    ensures Add(Subtract(a, b).value, b) == Ok(a)
  {
    EqualByEntries(Add(Subtract(a, b).value, b).value, a);
  }

  /** `map` with the identity gives back every matrix it does not throw on. */
  lemma MapIdentity(m: Matrix)
    requires Valid(m) && m.rows > 0
    ensures Map(m, x => x) == Ok(m)
  {
    EqualByEntries(Map(m, x => x).value, m);
  }

  /** Two `map`s in a row are one `map` of the composed function. */
  lemma MapCompose(m: Matrix, f: real -> real, g: real -> real)
    requires Valid(m) && m.rows > 0
    ensures Map(m, f).Ok?
    ensures Map(Map(m, f).value, g) == Map(m, x => g(f(x)))
  {
    var once := Map(m, f).value;
    EqualByEntries(Map(once, g).value, Map(m, x => g(f(x))).value);
  }
}

=== FILE: network_core.dfy ===
/** The state and the two loops shared by the matrix-based `Network` classes
    of src/compact.js and src/network.js: the constructor, the forward loop
    that fills the activation cache `data`, and the backward loop of
    `backPropagate`. The two files' loops differ only in how they turn the
    last activation into a return value and in how they orient `outputs`
    and `targets` before the backward loop; those parts live in `Compact`
    and `RowNetwork`.

    A JavaScript method that mutates `this` becomes a function from the old
    state to an `Outcome`: the state after the call together with what the
    call returned or threw. A throw in the middle of a loop keeps the
    mutations made before it. */
module NetworkCore {
  import opened Results
  import opened Matrices

  /** An activation strategy: `func` is applied after each affine map and
      `dfunc` is its derivative, written in terms of `func`'s output. */
  datatype Activation = Activation(func: real -> real, dfunc: real -> real)

  datatype Network = Network(
    layers: seq<nat>,
    weights: seq<Matrix>,
    biases: seq<Matrix>,
    /** `data`: the activations cached by the last forward pass */
    cache: seq<Matrix>,
    learningRate: real,
    activation: Activation)

  /** The network after a call, and the call's return value or error. */
  datatype Outcome<T> = Outcome(net: Network, result: Result<T>)

  /** One training example of a dataset. */
  datatype Sample = Sample(inputs: seq<real>, targets: seq<real>)

  /** The number of layer transitions, `layers.length - 1` (none for an
      empty list, where the constructor's loop does not run). */
  function Transitions(layers: seq<nat>): nat {
    if |layers| == 0 then 0 else |layers| - 1
  }

  function Last<T>(s: seq<T>): T
    requires |s| > 0
  {
    s[|s| - 1]
  }

  predicate AllValid(ms: seq<Matrix>) {
    forall k :: 0 <= k < |ms| ==> Valid(ms[k])
  }

  /** The invariant every method relies on: one weight and one bias matrix
      per transition, and rectangular grids everywhere. */
  predicate Structured(net: Network) {
    && |net.weights| == Transitions(net.layers)
    && |net.biases| == Transitions(net.layers)
    && AllValid(net.weights)
    && AllValid(net.biases)
    && AllValid(net.cache)
  }

  /** Moreover `weights[i]` is `layers[i+1] x layers[i]` and `biases[i]` is
      `layers[i+1] x 1`. */
  predicate WellShaped(net: Network) {
    && Structured(net)
    && forall i :: 0 <= i < |net.weights| ==>
         && HasShape(net.weights[i], net.layers[i + 1], net.layers[i])
         && HasShape(net.biases[i], net.layers[i + 1], 1)
  }

  /** Every layer has at least one unit. */
  predicate Positive(layers: seq<nat>) {
    forall k :: 0 <= k < |layers| ==> layers[k] > 0
  }

  /** The cache holds one `layers[k] x 1` column per layer, as a successful
      forward pass leaves it. */
  predicate CacheMatches(net: Network) {
    && |net.cache| == |net.layers|
    && forall k :: 0 <= k < |net.cache| ==> HasShape(net.cache[k], net.layers[k], 1)
  }

  /** Every matrix in the sequence is a single column. */
  predicate Columns(ms: seq<Matrix>) {
    forall k :: 0 <= k < |ms| ==> ms[k].cols == 1
  }

  /** Everything but the cache is the same in both states. */
  ghost predicate SameParameters(a: Network, b: Network) {
    && a.layers == b.layers
    && a.weights == b.weights
    && a.biases == b.biases
    && a.learningRate == b.learningRate
    && a.activation == b.activation
  }

  /** Only the weights and biases may differ between the two states. */
  ghost predicate SameExceptParameters(a: Network, b: Network) {
    && a.layers == b.layers
    && a.cache == b.cache
    && a.learningRate == b.learningRate
    && a.activation == b.activation
  }

  /** An initial `rows x cols` matrix with entry `(r, c)` equal to `init(r, c)`. */
  function Initial(rows: nat, cols: nat, init: (nat, nat) -> real): (m: Matrix)
    ensures HasShape(m, rows, cols)
    ensures forall r, c :: 0 <= r < rows && 0 <= c < cols ==> m.data[r][c] == init(r, c)
  {
    Matrix(rows, cols,
      seq(rows, r requires 0 <= r < rows =>
        seq(cols, c requires 0 <= c < cols => init(r, c))))
  }

  /** `Matrix.random(layers[i + 1], layers[i])` in the constructor. */
  function InitialWeights(layers: seq<nat>, i: nat, init: (nat, nat, nat) -> real): (m: Matrix)
    requires i + 1 < |layers|
    ensures HasShape(m, layers[i + 1], layers[i])
  {
    Initial(layers[i + 1], layers[i], (r: nat, c: nat) => init(i, r, c))
  }

  /** `Matrix.random(layers[i + 1], 1)` in the constructor. */
  function InitialBiases(layers: seq<nat>, i: nat, init: (nat, nat) -> real): (m: Matrix)
    requires i + 1 < |layers|
    ensures HasShape(m, layers[i + 1], 1)
  {
    Initial(layers[i + 1], 1, (r: nat, c: nat) => init(i, r))
  }

  /** The constructor. `Matrix.random` is replaced by caller-supplied initial
      values: `initWeight(i, r, c)` for `weights[i]` and `initBias(i, r)` for
      `biases[i]`. */
  function Create(layers: seq<nat>, learningRate: real, activation: Activation,
                  initWeight: (nat, nat, nat) -> real, initBias: (nat, nat) -> real): (net: Network)
    ensures WellShaped(net)
    ensures net.layers == layers && net.cache == []
    ensures |net.weights| == |net.biases| == Transitions(layers)
    ensures net.learningRate == learningRate && net.activation == activation
  {
    var n := Transitions(layers);
    var weights := seq(n, i requires 0 <= i < n => InitialWeights(layers, i, initWeight));
    var biases := seq(n, i requires 0 <= i < n => InitialBiases(layers, i, initBias));
    Network(layers, weights, biases, [], learningRate, activation)
  }

  /** `Matrix.from([xs]).transpose()`: the values as an `|xs| x 1` column. */
  function ColumnOf(xs: seq<real>): (m: Matrix)
    ensures HasShape(m, |xs|, 1)
    ensures forall k :: 0 <= k < |xs| ==> m.data[k][0] == xs[k]
  {
    var row := From([xs]);
    Transpose(row.value)
  }

  /** `Matrix.from([xs])`: the values as a `1 x |xs|` row. */
  function RowOf(xs: seq<real>): (m: Matrix)
    ensures HasShape(m, 1, |xs|)
    ensures m.data[0] == xs
  {
    From([xs]).value
  }

  /** The body of the forward loop for transition `i`:
      `weights[i].multiply(x).add(biases[i]).map(func)`. */
  function LayerStep(net: Network, i: nat, x: Matrix): (r: Result<Matrix>)
    requires Structured(net) && i < |net.weights| && Valid(x)
    ensures r.Ok? ==> Valid(r.value) && r.value.rows == net.weights[i].rows && r.value.cols == x.cols
    ensures r.Err? ==> r.error.DimensionMismatch? || r.error == ReadOfUndefined
  {
    var z :- Multiply(net.weights[i], x);
    var s :- Add(z, net.biases[i]);
    Map(s, net.activation.func)
  }

  /** The forward loop from transition `i` on, pushing each activation onto
      the cache; the last activation on success. */
  function ForwardFrom(net: Network, i: nat): (r: Outcome<Matrix>)
    requires Structured(net) && |net.cache| == i + 1 && i <= |net.weights|
    ensures Structured(r.net) && SameParameters(r.net, net)
    ensures |net.cache| <= |r.net.cache| && r.net.cache[..|net.cache|] == net.cache
    ensures Columns(net.cache) ==> Columns(r.net.cache)
    ensures r.result.Ok? ==> |r.net.cache| == |net.weights| + 1 && r.result.value == Last(r.net.cache)
    ensures r.result.Ok? && i < |net.weights| ==>
              r.result.value.rows == Last(net.weights).rows
    ensures r.result.Err? ==> r.result.error.DimensionMismatch? || r.result.error == ReadOfUndefined
    decreases |net.weights| - i
  {
    if i == |net.weights| then Outcome(net, Ok(net.cache[i]))
    else
      match LayerStep(net, i, net.cache[i])
      case Err(e) => Outcome(net, Err(e))
      case Ok(next) => ForwardFrom(net.(cache := net.cache + [next]), i + 1)
  }

  /** `feedForward` up to its return statement: the input check, the cache
      reset to the input column, and the forward loop. */
  function ForwardPass(net: Network, inputs: seq<real>): (r: Outcome<Matrix>)
    requires Structured(net)
    ensures (|net.layers| == 0 || |inputs| != net.layers[0]) <==> r.result == Err(InvalidInputs)
    ensures r.result == Err(InvalidInputs) ==> r.net == net
    ensures Structured(r.net) && SameParameters(r.net, net)
    ensures r.result.Ok? ==> |r.net.cache| == |net.layers| && r.result.value == Last(r.net.cache)
    ensures r.result.Ok? ==> r.net.cache[0] == ColumnOf(inputs) && Columns(r.net.cache)
    ensures r.result.Ok? && |net.layers| > 1 ==> r.result.value.rows == Last(net.weights).rows
  {
    if |net.layers| == 0 || |inputs| != net.layers[0] then Outcome(net, Err(InvalidInputs))
    else ForwardFrom(net.(cache := [ColumnOf(inputs)]), 0)
  }

  /** What the backward loop carries from one transition to the next. */
  datatype Carry = Carry(errors: Matrix, gradients: Matrix)

  /** `gradients.dotMultiply(errors).map(x => x * learningRate)` */
  function ScaledGradient(net: Network, c: Carry): (r: Result<Matrix>)
    requires Valid(c.errors) && Valid(c.gradients)
    ensures r.Ok? ==> HasShape(r.value, c.gradients.rows, c.gradients.cols)
    ensures r.Err? ==> r.error.DimensionMismatch? || r.error == ReadOfUndefined
  {
    var product :- DotMultiply(c.gradients, c.errors);
    Map(product, x => x * net.learningRate)
  }

  /** `weights[i].add(g.multiply(data[i].transpose()))` */
  function UpdatedWeights(net: Network, i: nat, g: Matrix): (r: Result<Matrix>)
    requires Structured(net) && i < |net.weights| && i < |net.cache| && Valid(g)
    ensures r.Ok? ==> HasShape(r.value, net.weights[i].rows, net.weights[i].cols)
    ensures r.Err? ==> r.error.DimensionMismatch?
  {
    var delta :- Multiply(g, Transpose(net.cache[i]));
    Add(net.weights[i], delta)
  }

  /** The body of the backward loop for transition `i`: scale the gradient
      by the errors and the learning rate, add it to `weights[i]` and
      `biases[i]`, then pass on errors read through the weights just written
      and the derivative of cache entry `i`. A throw after a write keeps the
      write. */
  function BackStep(net: Network, i: nat, c: Carry): (r: Outcome<Carry>)
    requires Structured(net) && i < |net.weights| && Valid(c.errors) && Valid(c.gradients)
    ensures Structured(r.net) && SameExceptParameters(r.net, net)
    ensures WellShaped(net) ==> WellShaped(r.net)
    ensures forall k :: 0 <= k < |net.weights| && k != i ==>
              r.net.weights[k] == net.weights[k] && r.net.biases[k] == net.biases[k]
    ensures r.result.Ok? ==> Valid(r.result.value.errors) && Valid(r.result.value.gradients)
    ensures r.result.Err? ==> r.result.error.DimensionMismatch? || r.result.error == ReadOfUndefined
  {
    match ScaledGradient(net, c)
    case Err(e) => Outcome(net, Err(e))
    case Ok(g) =>
      if i >= |net.cache| then Outcome(net, Err(ReadOfUndefined))
      else
        match UpdatedWeights(net, i, g)
        case Err(e) => Outcome(net, Err(e))
        case Ok(w) =>
          var withWeights := net.(weights := net.weights[i := w]);
          match Add(net.biases[i], g)
          case Err(e) => Outcome(withWeights, Err(e))
          case Ok(b) =>
            var updated := withWeights.(biases := net.biases[i := b]);
            match Multiply(Transpose(w), c.errors)
            case Err(e) => Outcome(updated, Err(e))
            case Ok(errors) =>
              match Map(net.cache[i], net.activation.dfunc)
              case Err(e) => Outcome(updated, Err(e))
              case Ok(gradients) => Outcome(updated, Ok(Carry(errors, gradients)))
  }

  /** The backward loop for transitions `i` down to `0`. */
  function BackwardFrom(net: Network, i: int, c: Carry): (r: Outcome<()>)
    requires Structured(net) && -1 <= i < |net.weights| && Valid(c.errors) && Valid(c.gradients)
    ensures Structured(r.net) && SameExceptParameters(r.net, net)
    ensures WellShaped(net) ==> WellShaped(r.net)
    ensures forall k :: i < k < |net.weights| ==>
              r.net.weights[k] == net.weights[k] && r.net.biases[k] == net.biases[k]
    ensures r.result.Err? ==> r.result.error.DimensionMismatch? || r.result.error == ReadOfUndefined
    decreases i + 1
  {
    if i < 0 then Outcome(net, Ok(()))
    else
      var step := BackStep(net, i, c);
      match step.result
      case Err(e) => Outcome(step.net, Err(e))
      case Ok(next) => BackwardFrom(step.net, i - 1, next)
  }

  /** `backPropagate` from the oriented `outputs` and `targets` matrices on:
      `errors = wanted.subtract(parsed)`, `gradients = parsed.map(dfunc)`,
      then the backward loop from the last transition. */
  function Backward(net: Network, parsed: Matrix, wanted: Matrix): (r: Outcome<()>)
    requires Structured(net) && Valid(parsed) && Valid(wanted)
    ensures Structured(r.net) && SameExceptParameters(r.net, net)
    ensures WellShaped(net) ==> WellShaped(r.net)
    ensures !SameShape(wanted, parsed) ==> r == Outcome(net, Err(DimensionMismatch(SubtractOp)))
    ensures SameShape(wanted, parsed) && parsed.rows == 0 ==> r == Outcome(net, Err(ReadOfUndefined))
    ensures r.result.Err? ==> r.result.error.DimensionMismatch? || r.result.error == ReadOfUndefined
  {
    match Subtract(wanted, parsed)
    case Err(e) => Outcome(net, Err(e))
    case Ok(errors) =>
      match Map(parsed, net.activation.dfunc)
      case Err(e) => Outcome(net, Err(e))
      case Ok(gradients) => BackwardFrom(net, |net.weights| - 1, Carry(errors, gradients))
  }
}

=== FILE: network_laws.dfy ===
/** What the shared forward and backward loops compute on a well-shaped
    network, stated against a reference semantics on plain vectors: layer
    `i + 1` of the forward pass is `func(weights[i] · x + biases[i])`, unit by
    unit, and one backward step moves every weight and bias by the
    learning-rate-scaled gradient. */
module NetworkLaws {
  import opened Results
  import opened Matrices
  import opened MatrixLaws
  import opened NetworkCore

  /** Reference semantics of transition `i` on a plain vector: unit `r`
      outputs `func(Σ_k weights[i][r][k] * x[k] + biases[i][r])`. */
  function Neurons(net: Network, i: nat, x: seq<real>): (y: seq<real>)
    requires WellShaped(net) && i < |net.weights| && |x| == net.layers[i]
    ensures |y| == net.layers[i + 1]
  {
    seq(net.layers[i + 1], r requires 0 <= r < net.layers[i + 1] =>
      net.activation.func(Dot(net.weights[i].data[r], x) + net.biases[i].data[r][0]))
  }

  /** The activations of layers `0..n` on `inputs` by the reference semantics. */
  function Activations(net: Network, inputs: seq<real>, n: nat): (acts: seq<seq<real>>)
    requires WellShaped(net) && |net.layers| > 0 && |inputs| == net.layers[0]
    requires n <= |net.weights|
    ensures |acts| == n + 1 && acts[0] == inputs
    ensures forall k :: 0 <= k <= n ==> |acts[k]| == net.layers[k]
    ensures forall k :: 0 <= k < n ==> acts[k + 1] == Neurons(net, k, acts[k])
  {
    if n == 0 then [inputs]
    else
      var prev := Activations(net, inputs, n - 1);
      prev + [Neurons(net, n - 1, prev[n - 1])]
  }

  /** The activations of every layer. */
  function AllActivations(net: Network, inputs: seq<real>): (acts: seq<seq<real>>)
    requires WellShaped(net) && |net.layers| > 0 && |inputs| == net.layers[0]
    ensures |acts| == |net.layers|
  {
    Activations(net, inputs, |net.weights|)
  }

  /** No layer after the input layer is empty. */
  predicate NoEmptyLayerAfterInput(layers: seq<nat>) {
    forall k :: 1 <= k < |layers| ==> layers[k] > 0
  }

  /** The matrix form of the input value's column is the vector itself. */
  lemma ColumnOfColumn(xs: seq<real>)
    ensures Column(ColumnOf(xs), 0) == xs
  {
  }

  /** `current.transpose().data[0]` of a column holds the column's values. */
  lemma TransposedColumn(xs: seq<real>)
    ensures Transpose(ColumnOf(xs)).data[0] == xs
  {
    TransposeInvolution(From([xs]).value);
  }

  /** On a column holding `x`, the forward loop body computes the reference
      layer; it throws exactly when the next layer has no units (the `map`
      of an empty grid). */
  lemma LayerStepOnColumn(net: Network, i: nat, x: seq<real>)
    requires WellShaped(net) && i < |net.weights| && |x| == net.layers[i]
    ensures net.layers[i + 1] > 0 ==> LayerStep(net, i, ColumnOf(x)) == Ok(ColumnOf(Neurons(net, i, x)))
    ensures net.layers[i + 1] == 0 ==> LayerStep(net, i, ColumnOf(x)) == Err(ReadOfUndefined)
  {
    var col := ColumnOf(x);
    ColumnOfColumn(x);
    assert HasShape(net.weights[i], net.layers[i + 1], net.layers[i]);
    assert HasShape(net.biases[i], net.layers[i + 1], 1);
    var z := Multiply(net.weights[i], col).value;
    var s := Add(z, net.biases[i]).value;
    if net.layers[i + 1] > 0 {
      var m := Map(s, net.activation.func).value;
      var expected := ColumnOf(Neurons(net, i, x));
      assert forall r :: 0 <= r < net.layers[i + 1] ==> m.data[r][0] == expected.data[r][0];
      EqualByEntries(m, expected);
    }
  }

  /** The reference layer does not look at the cache. */
  lemma NeuronsIgnoreCache(a: Network, b: Network, i: nat, x: seq<real>)
    requires WellShaped(a) && WellShaped(b) && SameParameters(a, b)
    requires i < |a.weights| && |x| == a.layers[i]
    ensures Neurons(a, i, x) == Neurons(b, i, x)
  {
    assert forall r :: 0 <= r < a.layers[i + 1] ==> Neurons(a, i, x)[r] == Neurons(b, i, x)[r];
  }

  /** From transition `i` on, on a cache that so far agrees with the
      reference activations of `ref` (the network before the pass), the
      forward loop fills in the remaining ones; it throws exactly when some
      later layer is empty. */
  lemma {:induction false} ForwardFromActivations(net: Network, ref: Network, inputs: seq<real>, i: nat)
    requires WellShaped(net) && WellShaped(ref) && SameParameters(net, ref)
    requires |net.layers| > 0 && |inputs| == net.layers[0]
    requires i <= |net.weights| && |net.cache| == i + 1
    requires forall k :: 0 <= k <= i ==> net.cache[k] == ColumnOf(AllActivations(ref, inputs)[k])
    ensures var r := ForwardFrom(net, i);
            && (r.result.Ok? <==> forall k :: i < k < |net.layers| ==> net.layers[k] > 0)
            && (r.result.Err? ==> r.result.error == ReadOfUndefined)
            && (r.result.Ok? ==> forall k :: 0 <= k < |net.layers| ==>
                                   r.net.cache[k] == ColumnOf(AllActivations(ref, inputs)[k]))
    decreases |net.weights| - i
  {
    var acts := AllActivations(ref, inputs);
    if i < |net.weights| {
      LayerStepOnColumn(net, i, acts[i]);
      NeuronsIgnoreCache(net, ref, i, acts[i]);
      if net.layers[i + 1] > 0 {
        var next := net.(cache := net.cache + [ColumnOf(acts[i + 1])]);
        ForwardFromActivations(next, ref, inputs, i + 1);
      }
    }
  }

  /** The forward pass on a well-shaped network and an input of the right
      length: it succeeds exactly when no layer after the input is empty,
      and then caches the column of every reference activation. */
  lemma ForwardPassActivations(net: Network, inputs: seq<real>)
    requires WellShaped(net) && |net.layers| > 0 && |inputs| == net.layers[0]
    ensures var r := ForwardPass(net, inputs);
            && (r.result.Ok? <==> NoEmptyLayerAfterInput(net.layers))
            && (r.result.Err? ==> r.result.error == ReadOfUndefined)
            && (r.result.Ok? ==> CacheMatches(r.net) && WellShaped(r.net))
            && (r.result.Ok? ==> forall k :: 0 <= k < |net.layers| ==>
                                   r.net.cache[k] == ColumnOf(AllActivations(net, inputs)[k]))
  {
    var start := net.(cache := [ColumnOf(inputs)]);
    ForwardFromActivations(start, net, inputs, 0);
  }

  /** The learning-rate-scaled gradient of unit `p` in one backward step:
      `gradients[p] * errors[p] * learningRate`. */
  function Scaled(net: Network, c: Carry, p: nat): real
    requires Valid(c.errors) && Valid(c.gradients)
    requires p < c.errors.rows && p < c.gradients.rows && 0 < c.errors.cols && 0 < c.gradients.cols
  {
    c.gradients.data[p][0] * c.errors.data[p][0] * net.learningRate
  }

  /** On shapes that match, the scaled gradient holds
      `gradients[p] * errors[p] * learningRate` in row `p`. */
  lemma ScaledGradientEntries(net: Network, c: Carry, n: nat)
    requires HasShape(c.errors, n, 1) && HasShape(c.gradients, n, 1) && n > 0
    ensures ScaledGradient(net, c).Ok?
    ensures HasShape(ScaledGradient(net, c).value, n, 1)
    ensures forall p :: 0 <= p < n ==> ScaledGradient(net, c).value.data[p][0] == Scaled(net, c, p)
  {
  }

  /** On shapes that match, entry `(p, q)` of the new `weights[i]` is the
      old one plus `g[p] * data[i][q]`. */
  lemma UpdatedWeightsEntries(net: Network, i: nat, g: Matrix)
    requires WellShaped(net) && CacheMatches(net) && i < |net.weights|
    requires HasShape(g, net.layers[i + 1], 1)
    ensures UpdatedWeights(net, i, g).Ok?
    ensures forall p, q :: 0 <= p < net.layers[i + 1] && 0 <= q < net.layers[i] ==>
              UpdatedWeights(net, i, g).value.data[p][q]
                == net.weights[i].data[p][q] + g.data[p][0] * net.cache[i].data[q][0]
  {
    assert HasShape(net.weights[i], net.layers[i + 1], net.layers[i]);
    assert HasShape(net.cache[i], net.layers[i], 1);
    var cacheT := Transpose(net.cache[i]);
    var delta := Multiply(g, cacheT).value;
    forall p, q | 0 <= p < net.layers[i + 1] && 0 <= q < net.layers[i]
      ensures delta.data[p][q] == g.data[p][0] * net.cache[i].data[q][0]
    {
      assert Column(cacheT, q) == [net.cache[i].data[q][0]];
      assert DotN(g.data[p], Column(cacheT, q), 1)
          == DotN(g.data[p], Column(cacheT, q), 0) + g.data[p][0] * Column(cacheT, q)[0];
    }
  }

  /** Row `q` of `transpose(w) · e` is the dot product of column `q` of `w`
      with `e`. */
  lemma TransposedProductEntries(w: Matrix, e: Matrix)
    requires Valid(w) && Valid(e) && w.rows == e.rows && e.cols == 1
    ensures Multiply(Transpose(w), e).Ok?
    ensures forall q :: 0 <= q < w.cols ==>
              Multiply(Transpose(w), e).value.data[q][0] == Dot(Column(w, q), Column(e, 0))
  {
    forall q | 0 <= q < w.cols
      ensures Multiply(Transpose(w), e).value.data[q][0] == Dot(Column(w, q), Column(e, 0))
    {
      assert Transpose(w).data[q] == Column(w, q);
    }
  }

  /** The state one backward step on matching shapes leaves: `weights[i]`
      and `biases[i]` replaced by their updates, whether or not the step
      then throws. */
  lemma BackStepWrites(net: Network, i: nat, c: Carry)
    requires WellShaped(net) && CacheMatches(net) && i < |net.weights|
    requires HasShape(c.errors, net.layers[i + 1], 1) && HasShape(c.gradients, net.layers[i + 1], 1)
    requires net.layers[i + 1] > 0
    ensures ScaledGradient(net, c).Ok?
    ensures var g := ScaledGradient(net, c).value;
            && UpdatedWeights(net, i, g).Ok? && Add(net.biases[i], g).Ok?
            && BackStep(net, i, c).net
                 == net.(weights := net.weights[i := UpdatedWeights(net, i, g).value],
                         biases := net.biases[i := Add(net.biases[i], g).value])
    ensures var r := BackStep(net, i, c);
            && (r.result.Ok? <==> net.layers[i] > 0)
            && (r.result.Err? ==> r.result.error == ReadOfUndefined)
            && (r.result.Ok? ==>
                  && HasShape(r.result.value.errors, net.layers[i], 1)
                  && HasShape(r.result.value.gradients, net.layers[i], 1))
  {
    assert HasShape(net.weights[i], net.layers[i + 1], net.layers[i]);
    assert HasShape(net.biases[i], net.layers[i + 1], 1);
    assert HasShape(net.cache[i], net.layers[i], 1);
    ScaledGradientEntries(net, c, net.layers[i + 1]);
  }

  /** Entry `(p, q)` of `after` is entry `(p, q)` of `weights[i]` plus the
      scaled gradient `p` times the cached activation `q` of layer `i`. */
  predicate WeightsMoved(net: Network, i: nat, c: Carry, after: Matrix)
    requires WellShaped(net) && CacheMatches(net) && i < |net.weights|
    requires HasShape(c.errors, net.layers[i + 1], 1) && HasShape(c.gradients, net.layers[i + 1], 1)
    requires HasShape(after, net.layers[i + 1], net.layers[i])
  {
    forall p, q :: 0 <= p < net.layers[i + 1] && 0 <= q < net.layers[i] ==>
      after.data[p][q] == net.weights[i].data[p][q] + Scaled(net, c, p) * net.cache[i].data[q][0]
  }

  /** One backward step on a well-shaped network with a matching cache:
      `biases[i]` grows by the scaled gradient and `weights[i]` by its outer
      product with the cached activation of layer `i`. The updates happen
      even when the step then throws, which it does exactly when layer `i`
      is empty. */
  lemma BackStepUpdates(net: Network, i: nat, c: Carry)
    requires WellShaped(net) && CacheMatches(net) && i < |net.weights|
    requires HasShape(c.errors, net.layers[i + 1], 1) && HasShape(c.gradients, net.layers[i + 1], 1)
    requires net.layers[i + 1] > 0
    ensures var r := BackStep(net, i, c);
            && WellShaped(r.net)
            && (r.result.Ok? <==> net.layers[i] > 0)
            && (r.result.Err? ==> r.result.error == ReadOfUndefined)
            && (forall p :: 0 <= p < net.layers[i + 1] ==>
                  r.net.biases[i].data[p][0] == net.biases[i].data[p][0] + Scaled(net, c, p))
            && WeightsMoved(net, i, c, r.net.weights[i])
            && (r.result.Ok? ==>
                  && HasShape(r.result.value.errors, net.layers[i], 1)
                  && HasShape(r.result.value.gradients, net.layers[i], 1))
  {
    assert HasShape(net.biases[i], net.layers[i + 1], 1);
    BackStepWrites(net, i, c);
    ScaledGradientEntries(net, c, net.layers[i + 1]);
    BackStepMovesWeights(net, i, c);
  }

  /** The weight half of `BackStepUpdates`. */
  lemma BackStepMovesWeights(net: Network, i: nat, c: Carry)
    requires WellShaped(net) && CacheMatches(net) && i < |net.weights|
    requires HasShape(c.errors, net.layers[i + 1], 1) && HasShape(c.gradients, net.layers[i + 1], 1)
    requires net.layers[i + 1] > 0
    ensures var w := BackStep(net, i, c).net.weights[i];
            HasShape(w, net.layers[i + 1], net.layers[i]) && WeightsMoved(net, i, c, w)
  {
    BackStepWrites(net, i, c);
    ScaledGradientMovesWeights(net, i, c);
  }

  /** The update of `weights[i]` by the scaled gradient, before `BackStep`
      stores it. */
  lemma ScaledGradientMovesWeights(net: Network, i: nat, c: Carry)
    requires WellShaped(net) && CacheMatches(net) && i < |net.weights|
    requires HasShape(c.errors, net.layers[i + 1], 1) && HasShape(c.gradients, net.layers[i + 1], 1)
    requires net.layers[i + 1] > 0
    ensures ScaledGradient(net, c).Ok?
    ensures var w := UpdatedWeights(net, i, ScaledGradient(net, c).value);
            && w.Ok? && HasShape(w.value, net.layers[i + 1], net.layers[i])
            && WeightsMoved(net, i, c, w.value)
  {
    assert HasShape(net.weights[i], net.layers[i + 1], net.layers[i]);
    ScaledGradientEntries(net, c, net.layers[i + 1]);
    var g := ScaledGradient(net, c).value;
    UpdatedWeightsEntries(net, i, g);
  }

  /** What a successful backward step passes on: the errors are
      `transpose(weights[i]) · errors` with the weights ALREADY updated, and
      the gradients are `dfunc` of the cached activation of layer `i`. */
  lemma BackStepCarry(net: Network, i: nat, c: Carry)
    requires WellShaped(net) && CacheMatches(net) && i < |net.weights|
    requires HasShape(c.errors, net.layers[i + 1], 1) && HasShape(c.gradients, net.layers[i + 1], 1)
    requires net.layers[i + 1] > 0
    ensures var r := BackStep(net, i, c);
            r.result.Ok? ==>
              && |r.net.weights| == |net.weights|
              && (forall q :: 0 <= q < net.layers[i] ==>
                    r.result.value.errors.data[q][0]
                      == Dot(Column(r.net.weights[i], q), Column(c.errors, 0)))
              && (forall q :: 0 <= q < net.layers[i] ==>
                    r.result.value.gradients.data[q][0]
                      == net.activation.dfunc(net.cache[i].data[q][0]))
  {
    assert HasShape(net.weights[i], net.layers[i + 1], net.layers[i]);
    assert HasShape(net.cache[i], net.layers[i], 1);
    ScaledGradientEntries(net, c, net.layers[i + 1]);
    var g := ScaledGradient(net, c).value;
    var w := UpdatedWeights(net, i, g).value;
    TransposedProductEntries(w, c.errors);
    var r := BackStep(net, i, c);
    if r.result.Ok? {
      assert r.net.weights[i] == w;
    }
  }

  /** The backward loop from transition `i` down on a well-shaped network
      with a matching cache keeps every shape, and it throws exactly when it
      reaches an empty input layer. */
  lemma {:induction false} BackwardFromShapes(net: Network, i: int, c: Carry)
    requires WellShaped(net) && CacheMatches(net) && -1 <= i < |net.weights|
    requires 0 <= i ==> HasShape(c.errors, net.layers[i + 1], 1) && HasShape(c.gradients, net.layers[i + 1], 1)
    requires Valid(c.errors) && Valid(c.gradients)
    requires forall k :: 1 <= k <= i + 1 ==> net.layers[k] > 0
    ensures var r := BackwardFrom(net, i, c);
            && WellShaped(r.net) && CacheMatches(r.net)
            && (r.result.Ok? <==> (i < 0 || net.layers[0] > 0))
            && (r.result.Err? ==> r.result.error == ReadOfUndefined)
    decreases i + 1
  {
    if 0 <= i {
      BackStepUpdates(net, i, c);
      var step := BackStep(net, i, c);
      if step.result.Ok? {
        BackwardFromShapes(step.net, i - 1, step.result.value);
      }
    }
  }

  /** The backward loop leaves transition `i` as its first step wrote it. */
  lemma BackwardFromTop(net: Network, i: nat, c: Carry)
    requires Structured(net) && i < |net.weights| && Valid(c.errors) && Valid(c.gradients)
    ensures BackwardFrom(net, i, c).net.weights[i] == BackStep(net, i, c).net.weights[i]
    ensures BackwardFrom(net, i, c).net.biases[i] == BackStep(net, i, c).net.biases[i]
  {
  }
}

=== FILE: perceptron.dfy ===
/** The per-neuron network of k_ai.js: a `Perceptron` holds one weight per
    input and a bias, a `Layer` holds perceptrons of one input size, and a
    `NeuralNetwork` is a hidden and an output layer trained by one step of
    backpropagation per call. The squashing function `sigmoid` is a
    parameter; its derivative `dsigmoid(y) = y * (1 - y)`, written in terms
    of the sigmoid's output, is algebraic and modelled exactly. */
module Perceptrons {
  import opened Results
  import opened Matrices

  datatype Perceptron = Perceptron(size: nat, bias: real, weights: seq<real>)

  datatype Layer = Layer(layerSize: nat, percSize: nat, perceptrons: seq<Perceptron>)

  datatype NeuralNetwork = NeuralNetwork(iLayer: nat, hLayer: Layer, oLayer: Layer, learningRate: real)

  /** The learning rate the constructor sets. */
  const InitialLearningRate: real := 0.1

  /** `dsigmoid(y)`: the sigmoid's derivative from its output `y`. */
  function DSigmoid(y: real): real {
    y * (1.0 - y)
  }

  /** `new Perceptron(size)`, with the random bias and weights replaced by
      `bias` and `initWeight(i)`. */
  function NewPerceptron(size: nat, bias: real, initWeight: nat -> real): (p: Perceptron)
    ensures p.size == size && |p.weights| == size && p.bias == bias
    ensures forall i :: 0 <= i < size ==> p.weights[i] == initWeight(i)
  {
    Perceptron(size, bias, seq(size, i requires 0 <= i < size => initWeight(i)))
  }

  /** `getOutput(inputArray)`: `sigmoid` of the weighted sum, accumulated
      from index 0 up, plus the bias. */
  function Output(p: Perceptron, inputs: seq<real>, sigmoid: real -> real): real
    requires |inputs| <= |p.weights|
  {
    sigmoid(DotN(p.weights, inputs, |inputs|) + p.bias)
  }

  /** The loop of `getOutput`. */
  method GetOutput(p: Perceptron, inputs: seq<real>, sigmoid: real -> real) returns (y: real)
    requires |inputs| <= |p.weights|
    ensures y == Output(p, inputs, sigmoid)
  {
    var result := 0.0;
    var i := 0;
    while i < |inputs|
      invariant 0 <= i <= |inputs|
      invariant result == DotN(p.weights, inputs, i)
    {
      result := result + p.weights[i] * inputs[i];
      i := i + 1;
    }
    result := result + p.bias;
    y := sigmoid(result);
  }

  /** What the constructors establish and `train` keeps: `layerSize`
      perceptrons, each with `percSize` weights. */
  predicate LayerValid(l: Layer) {
    && |l.perceptrons| == l.layerSize
    && forall k :: 0 <= k < |l.perceptrons| ==>
         l.perceptrons[k].size == l.percSize && |l.perceptrons[k].weights| == l.percSize
  }

  /** `new Layer(layerSize, percSize)`: perceptron `k` starts with bias
      `initBias(k)` and weight `i` equal to `initWeight(k, i)`. */
  function NewLayer(layerSize: nat, percSize: nat, initBias: nat -> real,
                    initWeight: (nat, nat) -> real): (l: Layer)
    ensures LayerValid(l) && l.layerSize == layerSize && l.percSize == percSize
    ensures forall k, i :: 0 <= k < layerSize && 0 <= i < percSize ==>
              l.perceptrons[k].weights[i] == initWeight(k, i)
    ensures forall k :: 0 <= k < layerSize ==> l.perceptrons[k].bias == initBias(k)
  {
    var perceptrons := seq(layerSize, k requires 0 <= k < layerSize =>
                         NewPerceptron(percSize, initBias(k), (i: nat) => initWeight(k, i)));
    forall k | 0 <= k < layerSize
      ensures perceptrons[k].size == percSize && |perceptrons[k].weights| == percSize
      ensures perceptrons[k].bias == initBias(k)
      ensures forall i :: 0 <= i < percSize ==> perceptrons[k].weights[i] == initWeight(k, i)
    {
      var p := NewPerceptron(percSize, initBias(k), (i: nat) => initWeight(k, i));
      assert perceptrons[k] == p;
    }
    Layer(layerSize, percSize, perceptrons)
  }

  /** `Layer.feedForward(inputArray)`: a throw unless there are exactly
      `percSize` inputs, otherwise the output of every perceptron in order. */
  function LayerFeedForward(l: Layer, inputs: seq<real>, sigmoid: real -> real): (r: Result<seq<real>>)
    requires LayerValid(l)
    ensures r.Err? <==> |inputs| != l.percSize
    ensures r.Err? ==> r.error == WrongInputCount
    ensures r.Ok? ==> |r.value| == l.layerSize
    ensures r.Ok? ==> forall k :: 0 <= k < l.layerSize ==>
                        r.value[k] == Output(l.perceptrons[k], inputs, sigmoid)
  {
    if |inputs| != l.percSize then Err(WrongInputCount)
    else Ok(seq(|l.perceptrons|, k requires 0 <= k < |l.perceptrons| =>
              Output(l.perceptrons[k], inputs, sigmoid)))
  }

  /** The loop of `Layer.feedForward`, pushing one output per perceptron. */
  method LayerFeedForwardLoop(l: Layer, inputs: seq<real>, sigmoid: real -> real) returns (r: Result<seq<real>>)
    requires LayerValid(l)
    ensures r == LayerFeedForward(l, inputs, sigmoid)
  {
    if |inputs| != l.percSize {
      return Err(WrongInputCount);
    }
    var result: seq<real> := [];
    var k := 0;
    while k < |l.perceptrons|
      invariant 0 <= k <= |l.perceptrons|
      invariant |result| == k
      invariant forall m :: 0 <= m < k ==> result[m] == Output(l.perceptrons[m], inputs, sigmoid)
    {
      var y := GetOutput(l.perceptrons[k], inputs, sigmoid);
      result := result + [y];
      k := k + 1;
    }
    assert result == LayerFeedForward(l, inputs, sigmoid).value;
    return Ok(result);
  }

  /** The hidden layer reads the network inputs and the output layer reads
      the hidden layer. */
  predicate NetworkValid(nn: NeuralNetwork) {
    && LayerValid(nn.hLayer) && LayerValid(nn.oLayer)
    && nn.hLayer.percSize == nn.iLayer
    && nn.oLayer.percSize == nn.hLayer.layerSize
  }

  /** `new NeuralNetwork(iLayer, hLayer, oLayer)`: hidden perceptrons of
      size `iLayer`, output perceptrons of size `hLayer`, learning rate 0.1. */
  function NewNeuralNetwork(iLayer: nat, hLayer: nat, oLayer: nat,
                            hBias: nat -> real, hWeight: (nat, nat) -> real,
                            oBias: nat -> real, oWeight: (nat, nat) -> real): (nn: NeuralNetwork)
    ensures NetworkValid(nn)
    ensures nn.iLayer == iLayer && nn.hLayer.layerSize == hLayer && nn.oLayer.layerSize == oLayer
    ensures nn.learningRate == 0.1
  {
    NeuralNetwork(iLayer, NewLayer(hLayer, iLayer, hBias, hWeight), NewLayer(oLayer, hLayer, oBias, oWeight),
                  InitialLearningRate)
  }

  /** `NeuralNetwork.feedForward(inputArray)`: the hidden layer on the
      inputs, then the output layer on the hidden results. */
  function FeedForward(nn: NeuralNetwork, inputs: seq<real>, sigmoid: real -> real): (r: Result<seq<real>>)
    requires NetworkValid(nn)
    ensures r.Err? <==> |inputs| != nn.iLayer
    ensures r.Err? ==> r.error == WrongInputCount
    ensures r.Ok? ==> |r.value| == nn.oLayer.layerSize
    ensures r.Ok? ==>
              var hidden := LayerFeedForward(nn.hLayer, inputs, sigmoid).value;
              forall k :: 0 <= k < nn.oLayer.layerSize ==>
                r.value[k] == Output(nn.oLayer.perceptrons[k], hidden, sigmoid)
  {
    var hidden :- LayerFeedForward(nn.hLayer, inputs, sigmoid);
    LayerFeedForward(nn.oLayer, hidden, sigmoid)
  }

  /** `oLayerDelta`: `(targets[i] - outputs[i]) * dsigmoid(outputs[i])`. */
  function OutputDeltas(outputs: seq<real>, targets: seq<real>): (d: seq<real>)
    requires |targets| >= |outputs|
    ensures |d| == |outputs|
  {
    seq(|outputs|, i requires 0 <= i < |outputs| => (targets[i] - outputs[i]) * DSigmoid(outputs[i]))
  }

  /** Weight `i` of every perceptron of `l`, in perceptron order. */
  function WeightColumn(l: Layer, i: nat): (c: seq<real>)
    requires LayerValid(l) && i < l.percSize
    ensures |c| == l.layerSize
  {
    seq(|l.perceptrons|, j requires 0 <= j < |l.perceptrons| => l.perceptrons[j].weights[i])
  }

  /** `hLayerDelta`: hidden unit `i` gathers `Σ_j oDelta[j] * weights_j[i]`
      over the output perceptrons `j` of `o`, times `dsigmoid(hidden[i])`. */
  function HiddenDeltas(o: Layer, oDeltas: seq<real>, hidden: seq<real>): (d: seq<real>)
    requires LayerValid(o) && |oDeltas| == o.layerSize && |hidden| == o.percSize
    ensures |d| == |hidden|
  {
    seq(|hidden|, i requires 0 <= i < |hidden| =>
      DotN(oDeltas, WeightColumn(o, i), |oDeltas|) * DSigmoid(hidden[i]))
  }

  /** One perceptron's update: weight `j` grows by
      `learningRate * delta * inputs[j]`, the bias by `learningRate * delta`. */
  function UpdatePerceptron(p: Perceptron, delta: real, inputs: seq<real>, learningRate: real): (q: Perceptron)
    requires |inputs| == |p.weights|
    ensures q.size == p.size && |q.weights| == |p.weights|
    ensures forall j :: 0 <= j < |inputs| ==>
              q.weights[j] == p.weights[j] + learningRate * delta * inputs[j]
    ensures q.bias == p.bias + learningRate * delta
  {
    p.(weights := seq(|p.weights|, j requires 0 <= j < |p.weights| =>
                        p.weights[j] + learningRate * delta * inputs[j]),
       bias := p.bias + learningRate * delta)
  }

  /** Every perceptron `i` of `l` updated with `deltas[i]`. */
  function UpdateLayer(l: Layer, deltas: seq<real>, inputs: seq<real>, learningRate: real): (m: Layer)
    requires LayerValid(l) && |deltas| == l.layerSize && |inputs| == l.percSize
    ensures LayerValid(m) && m.layerSize == l.layerSize && m.percSize == l.percSize
    ensures forall i :: 0 <= i < l.layerSize ==>
              m.perceptrons[i] == UpdatePerceptron(l.perceptrons[i], deltas[i], inputs, learningRate)
  {
    l.(perceptrons := seq(|l.perceptrons|, i requires 0 <= i < |l.perceptrons| =>
                            UpdatePerceptron(l.perceptrons[i], deltas[i], inputs, learningRate)))
  }

  /** The weight update of `train` once the forward pass has produced
      `hidden` and `outputs`: the output and hidden deltas are both taken
      from the network as it was, then the output layer is updated, then
      the hidden layer. Missing targets would be `NaN` in JavaScript; the
      caller supplies at least one target per output. */
  function Step(nn: NeuralNetwork, inputs: seq<real>, hidden: seq<real>, outputs: seq<real>,
                targets: seq<real>): (m: NeuralNetwork)
    requires NetworkValid(nn) && |inputs| == nn.iLayer
    requires |hidden| == nn.hLayer.layerSize && |outputs| == nn.oLayer.layerSize && |targets| >= |outputs|
    ensures NetworkValid(m)
    ensures m.iLayer == nn.iLayer && m.learningRate == nn.learningRate
    ensures m.hLayer.layerSize == nn.hLayer.layerSize && m.hLayer.percSize == nn.hLayer.percSize
    ensures m.oLayer.layerSize == nn.oLayer.layerSize && m.oLayer.percSize == nn.oLayer.percSize
  {
    var oDeltas := OutputDeltas(outputs, targets);
    var hDeltas := HiddenDeltas(nn.oLayer, oDeltas, hidden);
    nn.(oLayer := UpdateLayer(nn.oLayer, oDeltas, hidden, nn.learningRate),
        hLayer := UpdateLayer(nn.hLayer, hDeltas, inputs, nn.learningRate))
  }

  /** `train(inputArray, targetArray)`: the forward pass, which throws on a
      wrong input count before anything changes, then one `Step`. */
  function Train(nn: NeuralNetwork, inputs: seq<real>, targets: seq<real>, sigmoid: real -> real): (r: Result<NeuralNetwork>)
    requires NetworkValid(nn) && |targets| >= nn.oLayer.layerSize
    ensures r.Err? <==> |inputs| != nn.iLayer
    ensures r.Err? ==> r.error == WrongInputCount
    ensures r.Ok? ==> NetworkValid(r.value)
    ensures r.Ok? ==>
              && r.value.iLayer == nn.iLayer && r.value.learningRate == nn.learningRate
              && r.value.hLayer.layerSize == nn.hLayer.layerSize && r.value.hLayer.percSize == nn.hLayer.percSize
              && r.value.oLayer.layerSize == nn.oLayer.layerSize && r.value.oLayer.percSize == nn.oLayer.percSize
  {
    var hidden :- LayerFeedForward(nn.hLayer, inputs, sigmoid);
    var outputs := LayerFeedForward(nn.oLayer, hidden, sigmoid).value;
    Ok(Step(nn, inputs, hidden, outputs, targets))
  }
}

=== FILE: perceptron_laws.dfy ===
/** Laws of `train` in k_ai.js: every weight and bias moves by the
    learning rate times its delta (and its input), the deltas come from the
    same forward pass `feedForward` computes, the hidden deltas read the
    output weights as they were before the step, and a sample whose targets
    the network already meets changes nothing. */
module PerceptronLaws {
  import opened Results
  import opened Matrices
  import opened MatrixLaws
  import opened Perceptrons

  /** `train` runs the forward pass of `feedForward` and then `Step`
      on its hidden and output values. */
  lemma TrainIsStep(nn: NeuralNetwork, inputs: seq<real>, targets: seq<real>, sigmoid: real -> real)
    requires NetworkValid(nn) && |targets| >= nn.oLayer.layerSize && |inputs| == nn.iLayer
    ensures var hidden := LayerFeedForward(nn.hLayer, inputs, sigmoid);
            var y := FeedForward(nn, inputs, sigmoid);
            && hidden.Ok? && y.Ok?
            && |hidden.value| == nn.hLayer.layerSize && |y.value| == nn.oLayer.layerSize
            && Train(nn, inputs, targets, sigmoid) == Ok(Step(nn, inputs, hidden.value, y.value, targets))
  {
  }

  /** The output layer after `Step`: perceptron `i` moves its weight `j`
      by `learningRate * oDelta[i] * hidden[j]` and its bias by
      `learningRate * oDelta[i]`. */
  lemma StepOutputLayer(nn: NeuralNetwork, inputs: seq<real>, hidden: seq<real>, y: seq<real>, targets: seq<real>)
    requires NetworkValid(nn) && |inputs| == nn.iLayer
    requires |hidden| == nn.hLayer.layerSize && |y| == nn.oLayer.layerSize && |targets| >= |y|
    ensures var m := Step(nn, inputs, hidden, y, targets);
            forall i :: 0 <= i < nn.oLayer.layerSize ==>
              var oDelta := (targets[i] - y[i]) * DSigmoid(y[i]);
              && m.oLayer.perceptrons[i].bias == nn.oLayer.perceptrons[i].bias + nn.learningRate * oDelta
              && forall j :: 0 <= j < nn.hLayer.layerSize ==>
                   m.oLayer.perceptrons[i].weights[j]
                     == nn.oLayer.perceptrons[i].weights[j] + nn.learningRate * oDelta * hidden[j]
  {
    var oDeltas := OutputDeltas(y, targets);
    var m := Step(nn, inputs, hidden, y, targets);
    assert m.oLayer == UpdateLayer(nn.oLayer, oDeltas, hidden, nn.learningRate);
  }

  /** The hidden layer after `Step`: perceptron `i` moves its weight `j`
      by `learningRate * hDelta[i] * inputs[j]` and its bias by
      `learningRate * hDelta[i]`, where the hidden deltas are read from the
      output layer of `nn`, before its update. */
  lemma StepHiddenLayer(nn: NeuralNetwork, inputs: seq<real>, hidden: seq<real>, y: seq<real>, targets: seq<real>)
    requires NetworkValid(nn) && |inputs| == nn.iLayer
    requires |hidden| == nn.hLayer.layerSize && |y| == nn.oLayer.layerSize && |targets| >= |y|
    ensures var m := Step(nn, inputs, hidden, y, targets);
            var hDeltas := HiddenDeltas(nn.oLayer, OutputDeltas(y, targets), hidden);
            forall i :: 0 <= i < nn.hLayer.layerSize ==>
              && m.hLayer.perceptrons[i].bias == nn.hLayer.perceptrons[i].bias + nn.learningRate * hDeltas[i]
              && forall j :: 0 <= j < nn.iLayer ==>
                   m.hLayer.perceptrons[i].weights[j]
                     == nn.hLayer.perceptrons[i].weights[j] + nn.learningRate * hDeltas[i] * inputs[j]
  {
    var hDeltas := HiddenDeltas(nn.oLayer, OutputDeltas(y, targets), hidden);
    var m := Step(nn, inputs, hidden, y, targets);
    assert m.hLayer == UpdateLayer(nn.hLayer, hDeltas, inputs, nn.learningRate);
  }

  /** A perceptron moved by a zero delta is unchanged. */
  lemma UpdateByZero(p: Perceptron, inputs: seq<real>, learningRate: real)
    requires |inputs| == |p.weights|
    ensures UpdatePerceptron(p, 0.0, inputs, learningRate) == p
  {
    var q := UpdatePerceptron(p, 0.0, inputs, learningRate);
    assert q.weights == p.weights;
  }

  /** A layer moved by all-zero deltas is unchanged. */
  lemma UpdateLayerByZero(l: Layer, deltas: seq<real>, inputs: seq<real>, learningRate: real)
    requires LayerValid(l) && |deltas| == l.layerSize && |inputs| == l.percSize
    requires forall i :: 0 <= i < |deltas| ==> deltas[i] == 0.0
    ensures UpdateLayer(l, deltas, inputs, learningRate) == l
  {
    var m := UpdateLayer(l, deltas, inputs, learningRate);
    forall i | 0 <= i < l.layerSize
      ensures m.perceptrons[i] == l.perceptrons[i]
    {
      UpdateByZero(l.perceptrons[i], inputs, learningRate);
    }
    assert m.perceptrons == l.perceptrons;
  }

  /** When `feedForward` already returns the targets, every output delta is
      zero, hence so is every hidden delta, and `train` returns the network
      unchanged. */
  lemma TrainAtTargets(nn: NeuralNetwork, inputs: seq<real>, targets: seq<real>, sigmoid: real -> real)
    requires NetworkValid(nn) && |inputs| == nn.iLayer
    requires FeedForward(nn, inputs, sigmoid).Ok?
    requires targets == FeedForward(nn, inputs, sigmoid).value
    ensures Train(nn, inputs, targets, sigmoid) == Ok(nn)
  {
    TrainIsStep(nn, inputs, targets, sigmoid);
    var hidden := LayerFeedForward(nn.hLayer, inputs, sigmoid).value;
    var y := targets;
    var oDeltas := OutputDeltas(y, targets);
    assert forall k :: 0 <= k < |oDeltas| ==> oDeltas[k] == 0.0;
    var hDeltas := HiddenDeltas(nn.oLayer, oDeltas, hidden);
    forall i | 0 <= i < |hDeltas|
      ensures hDeltas[i] == 0.0
    {
      DotNZeroLeft(oDeltas, WeightColumn(nn.oLayer, i), |oDeltas|);
    }
    UpdateLayerByZero(nn.oLayer, oDeltas, hidden, nn.learningRate);
    UpdateLayerByZero(nn.hLayer, hDeltas, inputs, nn.learningRate);
  }

  /** A `1-1-1` network with unit weights, zero biases and the learning rate
      of the constructor. */
  function UnitNetwork(): (nn: NeuralNetwork)
    ensures NetworkValid(nn) && nn.iLayer == 1
    ensures nn.hLayer.layerSize == 1 && nn.oLayer.layerSize == 1
  {
    var p := Perceptron(1, 0.0, [1.0]);
    NeuralNetwork(1, Layer(1, 1, [p]), Layer(1, 1, [p]), InitialLearningRate)
  }

  /** Reading the output weights after their update would give different
      hidden deltas: on `UnitNetwork` with a squashing function that returns
      `0.5` everywhere, input `[1]` and target `[1]`, the output weight moves
      from `1` to `1.00625`, the hidden weight moves by the old-weight delta
      `0.03125` to `1.003125`, and the delta read from the new output weight
      would differ. */
  lemma TrainReadsOldOutputWeights()
    ensures var nn := UnitNetwork();
            var r := Train(nn, [1.0], [1.0], (x: real) => 0.5);
            var oDeltas := OutputDeltas([0.5], [1.0]);
            && r == Ok(Step(nn, [1.0], [0.5], [0.5], [1.0]))
            && r.value.oLayer.perceptrons[0].weights[0] == 1.00625
            && r.value.hLayer.perceptrons[0].weights[0] == 1.003125
            && HiddenDeltas(nn.oLayer, oDeltas, [0.5]) == [0.03125]
            && HiddenDeltas(r.value.oLayer, oDeltas, [0.5]) != [0.03125]
  {
    var nn := UnitNetwork();
    var half := (x: real) => 0.5;
    TrainIsStep(nn, [1.0], [1.0], half);
    assert LayerFeedForward(nn.hLayer, [1.0], half).value == [0.5];
    assert FeedForward(nn, [1.0], half).value == [0.5];
    var oDeltas := OutputDeltas([0.5], [1.0]);
    assert oDeltas == [0.125];
    var m := Step(nn, [1.0], [0.5], [0.5], [1.0]);
    StepOutputLayer(nn, [1.0], [0.5], [0.5], [1.0]);
    StepHiddenLayer(nn, [1.0], [0.5], [0.5], [1.0]);
    assert WeightColumn(nn.oLayer, 0) == [1.0];
    var before := HiddenDeltas(nn.oLayer, oDeltas, [0.5]);
    assert before[0] == 0.03125;
    assert before == [0.03125];
    assert WeightColumn(m.oLayer, 0) == [1.00625];
    var after := HiddenDeltas(m.oLayer, oDeltas, [0.5]);
    assert DotN(oDeltas, [1.00625], 1) == 0.125 * 1.00625;
    assert after[0] == 0.125 * 1.00625 * 0.25;
  }

  /** An output layer whose weights are all zero ignores the hidden layer:
      whatever the inputs, `feedForward` gives `sigmoid(bias)` of each output
      perceptron. */
  lemma FeedForwardZeroOutputWeights(nn: NeuralNetwork, inputs: seq<real>, sigmoid: real -> real)
    requires NetworkValid(nn) && |inputs| == nn.iLayer
    requires forall k, j :: 0 <= k < nn.oLayer.layerSize && 0 <= j < nn.hLayer.layerSize ==>
               nn.oLayer.perceptrons[k].weights[j] == 0.0
    ensures FeedForward(nn, inputs, sigmoid).Ok?
    ensures var y := FeedForward(nn, inputs, sigmoid).value;
            forall k :: 0 <= k < nn.oLayer.layerSize ==> y[k] == sigmoid(nn.oLayer.perceptrons[k].bias)
  {
    var hidden := LayerFeedForward(nn.hLayer, inputs, sigmoid).value;
    forall k | 0 <= k < nn.oLayer.layerSize
      ensures Output(nn.oLayer.perceptrons[k], hidden, sigmoid) == sigmoid(nn.oLayer.perceptrons[k].bias)
    {
      DotNZeroLeft(nn.oLayer.perceptrons[k].weights, hidden, |hidden|);
    }
  }
}

=== FILE: results.dfy ===
/** Error values for the exceptions the JavaScript code throws, and the
    failure-compatible wrappers the model uses in place of `throw`. */
module Results {

  /** The matrix operation whose dimension check failed. */
  datatype Op = MultiplyOp | AddOp | SubtractOp | DotMultiplyOp

  datatype Error =
    /** "Attempted to <op> matrix of incorrect dimensions" */
    | DimensionMismatch(op: Op)
    /** A TypeError: a property of `undefined` was read (`data[0].length` on an
        empty grid, a missing cache entry, a missing bias grid, ...). */
    | ReadOfUndefined
    /** "Invalid number of inputs" */
    | InvalidInputs
    /** "Invalid number of targets" */
    | InvalidTargets
    /** "Wrong number of input." (the perceptron design) */
    | WrongInputCount

  /** Either the value an operation returns or the error it throws. */
  datatype Result<+T> = Ok(value: T) | Err(error: Error) {

    predicate IsFailure() {
      Err?
    }

    function PropagateFailure<U>(): Result<U>
      requires Err?
    {
      Err(error)
    }

    function Extract(): T
      requires Ok?
    {
      value
    }
  }

  /** A JavaScript value that may be `undefined` (None). */
  datatype Option<+T> = None | Some(value: T)
}

=== FILE: row_network.dfy ===
/** The entry points of the `Network` class of src/network.js, the earlier
    copy of the engine. It shares the constructor and both loops with
    src/compact.js but differs at the two ends: `feedForward` returns
    `current.data[0]`, the first ROW of the output column, and
    `backPropagate` wraps `outputs` and `targets` as `1 x n` rows. */
module RowNetwork {
  import opened Results
  import opened Matrices
  import opened NetworkCore
  import opened Training

  /** `feedForward(inputs)`: the forward pass, then `current.data[0]`. That
      is the one-element list holding the first output unit, or `undefined`
      (`None`) when the output column has no rows. */
  function FeedForward(net: Network, inputs: seq<real>): (r: Outcome<Option<seq<real>>>)
    requires Structured(net)
    ensures (|net.layers| == 0 || |inputs| != net.layers[0]) <==> r.result == Err(InvalidInputs)
    ensures r.result == Err(InvalidInputs) ==> r.net == net
    ensures Structured(r.net) && SameParameters(r.net, net)
    ensures r.result.Ok? ==> |r.net.cache| == |net.layers| && r.net.cache[0] == ColumnOf(inputs)
    ensures r.result.Ok? ==> Columns(r.net.cache) && Valid(Last(r.net.cache))
    ensures r.result.Ok? ==> (r.result.value.Some? <==> Last(r.net.cache).rows > 0)
    ensures r.result.Ok? && r.result.value.Some? ==>
              r.result.value.value == [Last(r.net.cache).data[0][0]]
  {
    var pass := ForwardPass(net, inputs);
    match pass.result
    case Err(e) => Outcome(pass.net, Err(e))
    case Ok(last) => Outcome(pass.net, Ok(if |last.data| == 0 then None else Some(last.data[0])))
  }

  /** `backPropagate(outputs, targets)`: the target count check, then
      `Matrix.from([outputs])` (a `TypeError` when `outputs` is `undefined`)
      and `targets` as rows into the backward loop. */
  function BackPropagate(net: Network, outputs: Option<seq<real>>, targets: seq<real>): (r: Outcome<()>)
    requires Structured(net)
    ensures (|net.layers| == 0 || |targets| != Last(net.layers)) <==> r.result == Err(InvalidTargets)
    ensures r.result == Err(InvalidTargets) ==> r.net == net
    ensures |net.layers| > 0 && |targets| == Last(net.layers) && outputs.None? ==>
              r == Outcome(net, Err(ReadOfUndefined))
    ensures |net.layers| > 0 && |targets| == Last(net.layers) && outputs.Some? && |outputs.value| != |targets| ==>
              r == Outcome(net, Err(DimensionMismatch(SubtractOp)))
    ensures Structured(r.net) && SameExceptParameters(r.net, net)
    ensures WellShaped(net) ==> WellShaped(r.net)
  {
    if |net.layers| == 0 || |targets| != Last(net.layers) then Outcome(net, Err(InvalidTargets))
    else
      match outputs
      case None => Outcome(net, Err(ReadOfUndefined))
      case Some(o) => Backward(net, RowOf(o), RowOf(targets))
  }

  /** One pass of `train` over the dataset: `feedForward` then
      `backPropagate` on each sample in order, stopping at the first throw. */
  function Epoch(net: Network, dataset: seq<Sample>): (r: Outcome<()>)
    requires Structured(net)
    ensures Structured(r.net) && SameConfiguration(r.net, net)
    ensures WellShaped(net) ==> WellShaped(r.net)
    ensures |dataset| == 0 ==> r == Outcome(net, Ok(()))
    decreases |dataset|
  {
    if |dataset| == 0 then Outcome(net, Ok(()))
    else
      var fed := FeedForward(net, dataset[0].inputs);
      match fed.result
      case Err(e) => Outcome(fed.net, Err(e))
      case Ok(outputs) =>
        var stepped := BackPropagate(fed.net, outputs, dataset[0].targets);
        match stepped.result
        case Err(e) => Outcome(stepped.net, Err(e))
        case Ok(_) => Epoch(stepped.net, dataset[1..])
  }

  /** `train(dataset, iter)`: `iter` passes over the dataset. */
  function Train(net: Network, dataset: seq<Sample>, iter: nat): (r: Outcome<()>)
    requires Structured(net)
    ensures Structured(r.net) && SameConfiguration(r.net, net)
    ensures iter == 0 ==> r == Outcome(net, Ok(()))
    ensures iter == 1 ==> r == Epoch(net, dataset)
  {
    Repeatedly(net, n requires Structured(n) => Epoch(n, dataset), iter)
  }
}

=== FILE: row_network_laws.dfy ===
/** How src/network.js behaves next to src/compact.js. Its `feedForward`
    keeps only the first output unit, so on a network with two or more
    outputs the first `backPropagate` of `train` throws a dimension mismatch
    before touching any weight; on a network with a single output the two
    files compute the same thing. */
module RowNetworkLaws {
  import opened Results
  import opened Matrices
  import opened NetworkCore
  import opened NetworkLaws
  import opened Training
  import Compact
  import CompactLaws
  import RowNetwork

  /** Both files run the same forward pass; src/network.js returns the
      first unit of what src/compact.js returns, or `undefined` when there
      is none. */
  lemma FeedForwardFirstUnit(net: Network, inputs: seq<real>)
    requires Structured(net)
    ensures var r := RowNetwork.FeedForward(net, inputs);
            var c := Compact.FeedForward(net, inputs);
            && r.net == c.net
            && (r.result.Err? <==> c.result.Err?)
            && (c.result.Err? ==> r.result.error == c.result.error)
            && (c.result.Ok? && |c.result.value| == 0 ==> r.result.value == None)
            && (c.result.Ok? && |c.result.value| > 0 ==> r.result.value == Some([c.result.value[0]]))
  {
  }

  /** On a well-shaped network, `feedForward` of src/network.js returns
      exactly one value, the first reference output activation, whenever
      the forward pass succeeds and the output layer is non-empty. */
  lemma FeedForwardOneValue(net: Network, inputs: seq<real>)
    requires WellShaped(net) && |net.layers| > 0 && |inputs| == net.layers[0]
    requires NoEmptyLayerAfterInput(net.layers) && Last(net.layers) > 0
    ensures var r := RowNetwork.FeedForward(net, inputs);
            r.result == Ok(Some([Last(AllActivations(net, inputs))[0]]))
  {
    CompactLaws.FeedForwardActivations(net, inputs);
    FeedForwardFirstUnit(net, inputs);
  }

  /** A `1 x 1` row is a `1 x 1` column. */
  lemma RowOfSingle(xs: seq<real>)
    requires |xs| == 1
    ensures RowOf(xs) == ColumnOf(xs)
  {
    var row := RowOf(xs);
    var col := ColumnOf(xs);
    assert row.data[0] == col.data[0];
  }

  /** With a single output value, `backPropagate` of src/network.js is that
      of src/compact.js: either both throw the same error from the same
      state, or both run the backward loop on the same `1 x 1` matrices. */
  lemma BackPropagateSingleOutput(net: Network, outputs: seq<real>, targets: seq<real>)
    requires Structured(net) && |outputs| == 1
    ensures RowNetwork.BackPropagate(net, Some(outputs), targets) == Compact.BackPropagate(net, outputs, targets)
  {
    if |targets| == 1 {
      RowOfSingle(outputs);
      RowOfSingle(targets);
    }
  }

  /** The dataset entries `inputs` and `targets` have the lengths of the
      input and the output layer. */
  predicate Fits(net: Network, s: Sample) {
    |net.layers| > 0 && |s.inputs| == net.layers[0] && |s.targets| == Last(net.layers)
  }

  /** On a network whose output layer has two or more units (and no empty
      layer after the input), the first sample of a pass makes
      `backPropagate` throw a `subtract` dimension mismatch: the single
      output value is a `1 x 1` row, the targets a `1 x n` row. The pass
      stops there with every weight and bias untouched. */
  lemma EpochWideOutput(net: Network, dataset: seq<Sample>)
    requires WellShaped(net) && |net.layers| > 0
    requires NoEmptyLayerAfterInput(net.layers) && Last(net.layers) >= 2
    requires |dataset| > 0 && Fits(net, dataset[0])
    ensures var r := RowNetwork.Epoch(net, dataset);
            r.result == Err(DimensionMismatch(SubtractOp)) && SameParameters(r.net, net)
  {
    FeedForwardOneValue(net, dataset[0].inputs);
  }

  /** Hence `train` of src/network.js with `iter > 0` on such a network
      throws on its first sample and changes no weight or bias. */
  lemma TrainWideOutput(net: Network, dataset: seq<Sample>, iter: nat)
    requires WellShaped(net) && |net.layers| > 0
    requires NoEmptyLayerAfterInput(net.layers) && Last(net.layers) >= 2
    requires |dataset| > 0 && Fits(net, dataset[0]) && iter > 0
    ensures var r := RowNetwork.Train(net, dataset, iter);
            r.result == Err(DimensionMismatch(SubtractOp)) && SameParameters(r.net, net)
  {
    EpochWideOutput(net, dataset);
  }

  /** With a single output unit, the output column of a well-shaped
      network is one value, so both files feed the same list into the same
      backward loop. */
  lemma StepSingleOutput(net: Network, s: Sample)
    requires WellShaped(net) && |net.layers| > 0 && Last(net.layers) == 1
    ensures var c := Compact.FeedForward(net, s.inputs);
            c.result.Ok? ==> |c.result.value| == 1
  {
  }

  /** A pass of src/network.js over any dataset equals a pass of
      src/compact.js when the output layer has exactly one unit. */
  lemma {:induction false} EpochSingleOutput(net: Network, dataset: seq<Sample>)
    requires WellShaped(net) && |net.layers| > 0 && Last(net.layers) == 1
    ensures RowNetwork.Epoch(net, dataset) == Compact.Epoch(net, dataset)
    decreases |dataset|
  {
    if |dataset| > 0 {
      var s := dataset[0];
      FeedForwardFirstUnit(net, s.inputs);
      StepSingleOutput(net, s);
      var fed := Compact.FeedForward(net, s.inputs);
      if fed.result.Ok? {
        var v := fed.result.value;
        assert v == [v[0]];
        assert RowNetwork.FeedForward(net, s.inputs) == Outcome(fed.net, Ok(Some(v)));
        assert WellShaped(fed.net);
        BackPropagateSingleOutput(fed.net, v, s.targets);
        var stepped := Compact.BackPropagate(fed.net, fed.result.value, s.targets);
        if stepped.result.Ok? {
          EpochSingleOutput(stepped.net, dataset[1..]);
        }
      }
    }
  }

  /** So does `train`, for any number of passes. */
  lemma TrainSingleOutput(net: Network, dataset: seq<Sample>, iter: nat)
    requires WellShaped(net) && |net.layers| > 0 && Last(net.layers) == 1
    ensures RowNetwork.Train(net, dataset, iter) == Compact.Train(net, dataset, iter)
  {
    var rowPass := n requires Structured(n) => RowNetwork.Epoch(n, dataset);
    var compactPass := n requires Structured(n) => Compact.Epoch(n, dataset);
    var inv := (n: Network) => WellShaped(n) && n.layers == net.layers;
    forall n | Structured(n) && inv(n)
      ensures rowPass(n) == compactPass(n) && (rowPass(n).result.Ok? ==> inv(rowPass(n).net))
    {
      EpochSingleOutput(n, dataset);
    }
    RepeatedlyAgree(net, rowPass, compactPass, iter, inv);
  }
}

=== FILE: training.dfy ===
/** The outer loop of `train`, shared by src/compact.js and src/network.js:
    `iter` rounds of a pass over the dataset, where the first throw ends the
    call. The pass is a parameter, so the laws below hold for both files. */
module Training {
  import opened Results
  import opened NetworkCore

  /** Layers, learning rate and activation are the same in both states. */
  ghost predicate SameConfiguration(a: Network, b: Network) {
    a.layers == b.layers && a.learningRate == b.learningRate && a.activation == b.activation
  }

  /** `pass` can be run on every structured network, and it keeps the
      structure and the configuration. */
  ghost predicate Preserving(pass: Network --> Outcome<()>) {
    && (forall n :: Structured(n) ==> pass.requires(n))
    && (forall n {:trigger pass(n)} :: Structured(n) ==>
          Structured(pass(n).net) && SameConfiguration(pass(n).net, n))
  }

  /** `iter` rounds of `pass`, stopping at the first throw. */
  function Repeatedly(net: Network, pass: Network --> Outcome<()>, iter: nat): (r: Outcome<()>)
    requires Structured(net) && Preserving(pass)
    ensures Structured(r.net) && SameConfiguration(r.net, net)
    ensures iter == 0 ==> r == Outcome(net, Ok(()))
    ensures iter == 1 ==> r == pass(net)
    ensures iter > 0 && pass(net).result.Err? ==> r == pass(net)
    decreases iter
  {
    if iter == 0 then Outcome(net, Ok(()))
    else
      var round := pass(net);
      match round.result
      case Err(e) => Outcome(round.net, Err(e))
      case Ok(u) =>
        assert u == ();
        Repeatedly(round.net, pass, iter - 1)
  }

  /** Runs `iter` further rounds only when `first` succeeded. */
  function Then(first: Outcome<()>, pass: Network --> Outcome<()>, iter: nat): Outcome<()>
    requires Structured(first.net) && Preserving(pass)
  {
    if first.result.Err? then first else Repeatedly(first.net, pass, iter)
  }

  /** `a + b` rounds are `a` rounds followed, if they all succeeded, by `b`
      more: each round starts from the state the previous one left. */
  lemma {:induction false} RepeatedlySplits(net: Network, pass: Network --> Outcome<()>, a: nat, b: nat)
    requires Structured(net) && Preserving(pass)
    ensures Repeatedly(net, pass, a + b) == Then(Repeatedly(net, pass, a), pass, b)
    decreases a
  {
    if a > 0 {
      var round := pass(net);
      if round.result.Ok? {
        RepeatedlySplits(round.net, pass, a - 1, b);
      }
    }
  }

  /** A state property that every successful round keeps, and under which
      no round throws, holds after any number of rounds, none of which
      throws. */
  lemma {:induction false} RepeatedlyKeeps(net: Network, pass: Network --> Outcome<()>, iter: nat,
                                           inv: Network -> bool)
    requires Structured(net) && Preserving(pass) && inv(net)
    requires forall n {:trigger pass(n)} :: Structured(n) && inv(n) ==>
               pass(n).result.Ok? && inv(pass(n).net)
    ensures var r := Repeatedly(net, pass, iter);
            r.result.Ok? && inv(r.net)
    decreases iter
  {
    if iter > 0 {
      RepeatedlyKeeps(pass(net).net, pass, iter - 1, inv);
    }
  }

  /** Two passes that agree on every state satisfying a property that
      successful rounds keep give the same outcome over any number of
      rounds. */
  lemma {:induction false} RepeatedlyAgree(net: Network, p1: Network --> Outcome<()>, p2: Network --> Outcome<()>,
                                           iter: nat, inv: Network -> bool)
    requires Structured(net) && Preserving(p1) && Preserving(p2) && inv(net)
    requires forall n {:trigger p1(n)} {:trigger p2(n)} :: Structured(n) && inv(n) ==>
               p1(n) == p2(n) && (p1(n).result.Ok? ==> inv(p1(n).net))
    ensures Repeatedly(net, p1, iter) == Repeatedly(net, p2, iter)
    decreases iter
  {
    if iter > 0 && p1(net).result.Ok? {
      RepeatedlyAgree(p1(net).net, p1, p2, iter - 1, inv);
    }
  }
}
